=== FILE: README.md ===
# Resumable Whisper annotation driver

This project is a Dafny model of `scripts/1.py`. The script walks an input
directory of speaker sub-directories. For each original `.wav` file it
resamples the audio, rejects files longer than 20 seconds, saves a processed
copy `processed_<i>.wav` beside it, and transcribes that copy with Whisper.
If the detected language is Chinese, Japanese or English, it appends a record
`<save path>|<speaker>|<token><text><token>\n` to a manifest file. On start-up
the manifest is read back into a set of already-processed save paths. A later
run skips those paths unless reprocessing is forced, so an interrupted run can
resume where it stopped.

The modules follow the script's structure:

- `PyText`: the parts of Python's `str` the script relies on. These are
  `isspace`, `strip`, `split`, `startswith` and `endswith`, with exactly
  Python's set of whitespace characters. The script never joins fields;
  `PyText.JoinFields` exists only to state that `split` loses nothing.
- `Decimal`: `str(i)` for the index in `processed_{i}.wav`, and its inverse.
- `Paths`: `os.path.join` on POSIX, for the two-argument calls the script
  makes.
- `Manifest`: `load_processed_files` and the record writer.
  - The manifest file is an `Option<string>`; `None` means the file does not
    exist.
  - Reading applies universal-newline translation (`\r\n` and a lone `\r`
    become `\n`). It then cuts the text after every `\n`, as `for line in f`
    does.
  - Appending in mode `'a'` creates a missing file.
- `Discovery`: the speaker directories, the `.wav` filter, and the numbering
  and naming of processed copies. Directory listings are inputs, in whatever
  order the filesystem returned them.
- `Pipeline`: `lang2token`, `transcribe_one` and `process_wav_file`. The
  audio library and the model are a `Collaborators` value of three functions:
  - `decode`: load, mix down and resample to a sample count, or fail;
  - `save`: write the processed copy, or fail;
  - `transcribe`: the detected language and text, or fail.

  Each exception the script catches becomes a distinct failure outcome.
- `Driver`: `main` as a fold over the discovered candidates.
  - The processed set is read once, before the loop, exactly as in the
    script.
  - The fold returns the final manifest and one `Outcome` per candidate. The
    outcome says whether the candidate was skipped, failed at which step, was
    too long, had an unsupported language, or was annotated.

The duration test `wav.shape[1] / target_sr > 20.0` is modelled as the
integer comparison `samples > 20 * rate`. `Pipeline.DurationGateExact`
proves this equals the test over exact rationals. A target rate of 0 raises
`ZeroDivisionError` in the script; here it is the `Failed(Duration)` outcome.

Three consequences of the code that a reader might not expect:

- **Blank lines are not skipped.** The guard `len(parts) >= 1` at line 22
  always holds, because `split` never returns an empty list. So a blank or
  all-whitespace line of the manifest puts the empty string into the
  processed set (`Manifest.BlankLineKey`).
- **Records end with a newline.** Line 102 writes no newline of its own; the
  record ends with the `"\n"` that line 61 puts at the end of the annotated
  text.
- **Targets keep the input directory.** A target is the input directory
  joined with the speaker and `processed_<i>.wav` (`Discovery.TargetShape`),
  so the processed set only recognises a record when the script is started
  with the input directory spelled the same way. The worked examples are
  stated for an arbitrary input directory `parent`.
- **Some input directories defeat resumption.** The key of a record is its
  stripped text before the first `|`. If the input directory contains a `|`,
  or starts with whitespace, no record reads back as its own save path, so
  every run transcribes and records every file again
  (`Manifest.KeyCharacterization`; `Driver.Clean` names the paths that do
  read back).

## Model

| member | source | states |
|---|---|---|
| PyText.Strip | scripts/1.py:21 | `line.strip()` returns a contiguous slice of the line; only whitespace is removed, and the result neither starts nor ends with whitespace |
| PyText.Split | scripts/1.py:21-22 | the split on the bar returns at least one field and no field contains the bar, so the `len(parts) >= 1` guard is always true |
| PyText.JoinSplit | scripts/1.py:21 | joining the fields of the split on the bar with the bar gives back the split string |
| PyText.SplitJoin | scripts/1.py:21 | splitting a join with the bar of bar-free fields gives back exactly those fields |
| PyText.FirstField | scripts/1.py:21-23 | `parts[0]` is `k` exactly when `k` has no bar and the string is `k` itself or begins with `k` and a bar |
| Decimal.ParseShow | scripts/1.py:91 | the decimal text `str(i)` puts in `processed_{i}.wav` reads back as `i` |
| Decimal.ShowInjective | scripts/1.py:91 | different indices are written as different decimal strings |
| Decimal.Show | scripts/1.py:91 | `str(i)` of an index is a non-empty string of decimal digits that starts with `0` only for the index 0 itself |
| Paths.JoinShape | scripts/1.py:84-91 | `os.path.join` returns an absolute second argument unchanged; otherwise the result starts with the first argument and ends with the second, with exactly one slash between them: it adds a slash exactly when the first argument is non-empty and does not already end in one |
| Paths.JoinInjective | scripts/1.py:90-91 | joining one directory with two different relative names gives two different paths |
| Manifest.LoadProcessed | scripts/1.py:15-24 | a manifest that does not exist yields the empty processed set |
| Manifest.Translate | scripts/1.py:19-20 | reading in text mode leaves no carriage return in the text |
| Manifest.TranslateCRLF | scripts/1.py:19-20 | a `\r\n` pair after text without carriage returns reads as a single `\n` |
| Manifest.TranslateLoneCR | scripts/1.py:19-20 | a `\r` not followed by `\n`, after text without carriage returns, also reads as a single `\n` |
| Manifest.TranslateAppendFree | scripts/1.py:19-20 | text without carriage returns reads back unchanged whatever follows it |
| Manifest.TranslateIdentity | scripts/1.py:19-20 | text without carriage returns reads back unchanged |
| Manifest.TranslateAppend | scripts/1.py:19-20 | text ending in a newline translates the same whether or not more text follows it |
| Manifest.Lines | scripts/1.py:20 | `for line in f` yields non-empty lines, each holding a newline only at its end, and every line but the last ends with one |
| Manifest.LinesConcat | scripts/1.py:20 | the lines put back together give the whole text: iteration loses and adds nothing |
| Manifest.LoadProcessedKeys | scripts/1.py:18-23 | `k` is in the processed set exactly when some line of the manifest, stripped, has `k` as the text before its first bar |
| Manifest.BlankLineKey | scripts/1.py:20-23 | a blank or all-whitespace line puts the empty string into the processed set |
| Manifest.KeyCharacterization | scripts/1.py:21-23 | the key the loader takes from a line is exactly its stripped text up to the first bar |
| Manifest.AppendAll | scripts/1.py:99-102 | a sequence of appends leaves the file alone when there is nothing to write, and otherwise leaves the old contents followed by every record in order |
| Manifest.EntryFields | scripts/1.py:102 | a record whose save path and speaker hold no bar splits on the bar into the save path, the speaker, and then the fields of the annotated text |
| Manifest.EntryKey | scripts/1.py:102 | a record written for a save path with no bar, no line break and no whitespace at its ends reads back with that save path as its key |
| Manifest.ManifestLinesAppend | scripts/1.py:101-102 | appending a single-line record to a newline-terminated manifest makes it read back as the old lines plus that record, still newline-terminated |
| Manifest.LoadAfterAppend | scripts/1.py:15-24 | after one single-line record is appended to a missing manifest or one ending in a newline, the next start-up reads the old processed set plus that record's key |
| Manifest.SingleRecordSnapshot | scripts/1.py:15-24 | a manifest holding exactly one single-line record reads back as the set of that record's key |
| Manifest.LoadAfterAppendAll | scripts/1.py:15-24 | after a sequence of single-line records is appended to a missing manifest or one ending in a newline, the next start-up reads the old set plus the keys of all the new records |
| Discovery.WavFiles | scripts/1.py:86-87 | a name survives the filter exactly when it is in the listing, ends in `.wav` and does not start with `processed_` |
| Discovery.WavFilesAppend | scripts/1.py:86-87 | the filter keeps the listing order: filtering a concatenation concatenates the filtered parts |
| Discovery.ProcessedNameRejected | scripts/1.py:87-91 | every generated `processed_<i>.wav` ends in `.wav` but is rejected by the filter |
| Discovery.GeneratedFilesInvisible | scripts/1.py:86-91 | a generated copy anywhere in a listing leaves the enumeration of originals unchanged, and so every index and target stays the same |
| Discovery.CopySavedKeepsOriginals | scripts/1.py:54 | saving `processed_<i>.wav` into a speaker directory, anywhere in its listing, leaves a listing with the same original files in every entry |
| Discovery.DiscoverSameOriginals | scripts/1.py:81-91 | two listings that agree entry by entry on names, on which entries are directories, and on each directory's original files give the same candidates |
| Discovery.ProcessedNameInjective | scripts/1.py:91 | different indices give different generated names |
| Discovery.TargetShape | scripts/1.py:84-91 | the i-th target of a speaker is the input directory's prefix, the speaker, one slash and `processed_<i>.wav` |
| Discovery.TargetInjective | scripts/1.py:84-91 | two targets coincide only for the same speaker and the same index |
| Discovery.DiscoverShape | scripts/1.py:81-91 | every candidate comes from a speaker directory of the listing; its index is a position among that directory's filtered files, its source is that file in the speaker directory, and its target is `processed_<index>.wav` beside it |
| Discovery.DiscoverComplete | scripts/1.py:81-91 | conversely, every filtered file of every speaker directory of the listing is a candidate, with its position as index and the matching source and target |
| Discovery.DiscoverKeysDistinct | scripts/1.py:83-91 | for a listing with distinct, slash-free names, no two candidates share both speaker and index |
| Discovery.DiscoverTargetsDistinct | scripts/1.py:83-91 | for such a listing, no two candidates of one run are written to the same target |
| Pipeline.TokenLanguage | scripts/1.py:9-13 | the language of a token is the unique `lang2token` entry that maps to it |
| Pipeline.Annotate | scripts/1.py:61 | the annotated text is nine characters longer than the text and ends with a newline |
| Pipeline.AnnotationRoundTrip | scripts/1.py:61 | the annotated text reads back as the detected language and the unchanged text |
| Pipeline.DurationGateExact | scripts/1.py:50-51 | for a positive rate, `samples / rate > 20.0` over exact rationals is the integer comparison `samples > 20 * rate` |
| Pipeline.ProcessWavFile | scripts/1.py:43-65 | an annotation is returned exactly when loading succeeds, the rate is positive, the audio is at most 20 s, saving succeeds, transcription succeeds and the language has a token. The annotation then reads back as the transcription. Nothing over 20 s is ever saved or transcribed |
| Pipeline.LanguageGate | scripts/1.py:55-62 | after a successful save, a failed transcription or an unsupported language gives no annotation; a supported one gives exactly token + text + token + newline |
| Pipeline.DurationGate | scripts/1.py:50-53 | audio longer than 20 s is reported as too long, and is neither saved nor transcribed |
| Driver.Decide | scripts/1.py:93-98 | a candidate is skipped exactly when its target is in the processed set and reprocessing is not forced |
| Driver.EntryOf | scripts/1.py:99-102 | a record is written exactly when `process_wav_file` returned a non-empty annotation |
| Driver.Run | scripts/1.py:78-105 | one outcome per candidate, each decided against the snapshot read before the loop; the final manifest is the old file with the records of the annotated candidates appended in order |
| Driver.Drive | scripts/1.py:78-105 | `main` decides once per discovered candidate, and skips a candidate only without forcing, for a manifest that exists and whose processed set holds that target |
| Driver.DriveSameOriginals | scripts/1.py:78-91 | a later listing with the same originals, such as one that also shows the copies an earlier run saved, gives the same run |
| Driver.ResumptionGate | scripts/1.py:93-96 | a candidate already processed, without forcing, is skipped without running the pipeline and writes nothing |
| Driver.RecordedIffAnnotated | scripts/1.py:98-102 | a candidate past the gate gets exactly `process_wav_file`'s outcome, and is recorded exactly when that returned an annotation, as save path, bar, speaker, bar, annotation |
| Driver.TooLongNeverRecorded | scripts/1.py:50-53 | audio over 20 s is never saved, transcribed or recorded |
| Driver.UnsupportedNeverRecorded | scripts/1.py:58-60 | a language without a token is never recorded |
| Driver.NewEntriesMembers | scripts/1.py:99-102 | a line is among a run's new records exactly when some candidate's outcome yields that record |
| Driver.RunSplit | scripts/1.py:89-102 | the loop is a fold with a fixed snapshot: running the first k candidates and then the rest, with the same snapshot, on the file the first part left, ends in the manifest of the whole run; so stopping after candidate k leaves exactly the records of the first k |
| Driver.AppendOnly | scripts/1.py:99-102 | the manifest only grows: the old contents stay a prefix, an existing file keeps existing, and a run that records nothing leaves the file exactly as it was, even uncreated |
| Driver.NothingRecorded | scripts/1.py:99-102 | a run in which no candidate yields a record writes no lines |
| Driver.EntryLineSingle | scripts/1.py:102 | a record built from break-free parts is exactly one newline-terminated line |
| Driver.CleanEntry | scripts/1.py:102 | the record of a candidate with a clean target, speaker and text is one line and reads back as that candidate's target |
| Driver.ParseAnnotationInverse | scripts/1.py:61 | only the exact text `token + text + token + "\n"` parses as an annotation |
| Driver.NewEntriesKeys | scripts/1.py:99-102 | when every record is keyed by its target, a run's records read back as exactly the recorded targets |
| Driver.SnapshotAfterRun | scripts/1.py:78-102 | after a run whose candidates are clean, starting from a missing manifest or one ending in a newline, the next start-up reads the old processed set plus exactly the targets recorded in this run, and the file still ends in a newline |
| Driver.SnapshotAfterDrive | scripts/1.py:78-102 | after a whole `main` run over a listing whose candidates are clean, starting from a missing manifest or one ending in a newline, the next start-up reads the old processed set plus exactly the targets that run recorded |
| Driver.RerunCandidate | scripts/1.py:93-98 | with the same collaborators, a second run without forcing, whose snapshot includes the first run's snapshot and its record for the candidate, skips that candidate or fails as before, and never records it again |
| Driver.RerunQuiet | scripts/1.py:93-102 | with the same collaborators, a second run without forcing whose snapshot holds the first run's snapshot and records writes nothing, skips every recorded candidate, and otherwise fails as before |
| Driver.RerunRecordsNothing | scripts/1.py:78-105 | for clean candidates, the same collaborators and a manifest that was missing or ended in a newline, re-running without forcing over a listing with the same originals, which may now also show the saved copies, writes nothing; every candidate recorded before is skipped without transcription, and every other one is skipped or fails exactly as before |
| Driver.RecordedSkippedLater | scripts/1.py:93-98 | whatever either run's collaborators do, a second run without forcing whose snapshot holds the first run's recorded targets skips those candidates, and records only targets its snapshot lacks |
| Driver.RerunOtherCollaborators | scripts/1.py:78-105 | for candidates whose targets have no bar, line break or outer whitespace and whose speaker and text have no line break (`Driver.Clean`), and a manifest that was missing or ended in a newline, with any collaborators on the second run and a listing with the same originals, re-running `main` without forcing never transcribes a candidate the first run recorded, and never records a target the manifest already holds |
| Driver.RunSameDecisions | scripts/1.py:89-102 | two runs whose snapshots lead every candidate to the same decision write the same manifest and outcomes |
| Driver.RestartTail | scripts/1.py:93-98 | when targets are distinct, the candidates after a stopped run's first k are decided the same under the old snapshot and under that snapshot plus the first k's records |
| Driver.RestartResumes | scripts/1.py:78-105 | restarting `main` without forcing, over a listing with the same originals, after a run stopped after its first k candidates ends in the manifest of one uninterrupted run, for a clean, well-formed listing, the same collaborators, and a missing or newline-terminated manifest |
| Driver.ExampleCandidates | scripts/1.py:81-91 | a speaker directory holding `a` and `b`, in that order, yields candidates 0 and 1 with targets `processed_0.wav` and `processed_1.wav` |
| Driver.ExampleFirstRun | scripts/1.py:78-105 | with `a` 12 s of English and `b` 25 s, a first run annotates `a` as `[EN]text[EN]\n`, rejects `b` as too long, and creates a manifest holding exactly `a`'s record |
| Driver.ExampleResumedRun | scripts/1.py:93-96 | with that record already in the manifest and the saved `processed_0.wav` now listed between `a` and `b`, a second run skips `a` without transcribing it, rejects `b` again, and leaves the manifest unchanged |

## Left out

- Audio work: `torchaudio.load`, the channel mean, resampling and `torchaudio.save`. These are the `decode` and `save` collaborators, which return a sample count or a failure.
- Whisper internals: `load_audio`, `pad_or_trim`, the mel spectrogram, language detection by the arg-max of the probabilities, and beam-search decoding. These are the `transcribe` collaborator, which returns a language and a text or a failure.
- Floating point: the duration is compared as integers. `Pipeline.DurationGateExact` relates this to exact rational division; float rounding is not modelled.
- Setup in `main` and under `__main__`: the CUDA assertion, loading the Whisper model, reading `sampling_rate` from the JSON config, argument parsing, and the `os.path.exists(input_dir)` check with `sys.exit(1)`. The target rate, the force flag, the input directory and the manifest contents are parameters.
- Negative sampling rates from the config: the rate is a `nat`.
- Directory listing: `os.listdir` and `os.path.isdir` are a sequence of `Entry` values in listing order. A listing that raises is not modelled.
- Logging: every `print` to stdout or stderr.
- Encoding: the manifest is read and written as text. Invalid UTF-8, which would make the read raise, is not modelled.
- Driver.SnapshotAfterRun: requires every candidate to be clean (`Driver.Clean`), meaning a target without `|`, line breaks or outer whitespace, and a speaker and text without line breaks. A transcription containing a line break writes a record that reads back as several lines, whose keys are not the target. It also requires the manifest to be missing or to end in a newline: a record appended to a last line without one merges with it, and the merged line has a different key.
- Driver.RerunRecordsNothing: has the same cleanliness and final-newline requirements. It assumes the second run sees the same collaborators as the first; with a model or disk that behaves differently, a candidate that failed before may succeed and be recorded. `Driver.RerunOtherCollaborators` states what still holds then. The second listing must hold the same entries, and the same originals, in the same order (`Discovery.SameOriginals`); a filesystem that lists them in another order on the second run is not covered.
- Driver.RerunCandidate: assumes the same collaborators in both runs, for the same reason.
- Driver.RerunQuiet: assumes the same collaborators in both runs, for the same reason.
- Driver.RerunOtherCollaborators: has the same cleanliness, final-newline and listing-order requirements as `Driver.RerunRecordsNothing`. Without cleanliness the claim fails: a bar in the input directory makes every record read back under the text before that bar, so the second run transcribes and records those candidates again.
- Driver.RunSplit: says what stopping leaves behind, not what a restart does. `Driver.RestartResumes` covers restarts without forcing only. With reprocessing forced, a restart re-appends every record already written, so the manifest holds those records twice.
- Driver.RestartResumes: requires a clean, well-formed listing and a newline-terminated or missing manifest, like `Driver.RerunRecordsNothing`, the same collaborators before and after the stop, and a listing with the same originals in the same order. A run stopped inside candidate k, after `torchaudio.save` but before the append, leaves the manifest of the first k candidates, so the lemma still applies; the processed copy left on disk, which the restart overwrites, is not modelled.
- Uncaught exceptions in the loop: opening or writing the manifest at lines 101-102 is outside any `try`. A failed `open`, or a speaker name that cannot be encoded as UTF-8, raises before any byte of the record is written and aborts the script after the candidate was saved and transcribed; the state left behind is then that of `Driver.Run` over the candidates before it, which `Driver.RunSplit` and `Driver.RestartResumes` describe. The abort itself is not modelled.
- Partial writes: a full disk during the write or the flush at `close`, or a kill during the write, can leave part of a record without its final newline. The restart's first record then merges with that fragment, and neither reads back under its target. Such a file is outside the newline-terminated manifests every resumption lemma requires, and is not modelled.
- Uncaught exceptions at start-up: `open(output_file, 'r')` at line 19 raises when the manifest path is a directory or cannot be read. The model has only a missing file or its text.

=== FILE: decimal.dfy ===
/** Python's `str(i)` for a non-negative index, and the parse that inverts it. */
module Decimal {

  predicate IsDigit(c: char) {
    '0' <= c <= '9'
  }

  function DigitChar(d: nat): (c: char)
    requires d < 10
    ensures IsDigit(c)
  {
    ['0', '1', '2', '3', '4', '5', '6', '7', '8', '9'][d]
  }

  function DigitValue(c: char): (d: nat)
    requires IsDigit(c)
    ensures d < 10
  {
    (c as int - '0' as int) as nat
  }

  /** `str(n)`: at least one character, every character a digit. */
  function Show(n: nat): (s: string)
    ensures |s| >= 1
    ensures forall k :: 0 <= k < |s| ==> IsDigit(s[k])
    ensures s[0] == '0' ==> n == 0
  {
    if n < 10 then [DigitChar(n)] else Show(n / 10) + [DigitChar(n % 10)]
  }

  /** `int(s)` for a string made of digits. */
  function Parse(s: string): nat
    requires forall k :: 0 <= k < |s| ==> IsDigit(s[k])
  {
    if |s| == 0 then 0 else Parse(s[..|s| - 1]) * 10 + DigitValue(s[|s| - 1])
  }

  lemma DigitRoundTrip(d: nat)
    requires d < 10
    ensures DigitValue(DigitChar(d)) == d
  {
  }

  /** Parsing what `Show` writes gives back the number. */
  lemma {:induction false} ParseShow(n: nat)
    ensures Parse(Show(n)) == n
  {
    DigitRoundTrip(n % 10);
    if n >= 10 {
      var s := Show(n);
      assert s[..|s| - 1] == Show(n / 10);
      ParseShow(n / 10);
    }
  }

  /** Distinct indices are written as distinct strings. */
  lemma ShowInjective(m: nat, n: nat)
    ensures Show(m) == Show(n) ==> m == n
  {
    ParseShow(m);
    ParseShow(n);
  }
}

=== FILE: discovery.dfy ===
/** Candidate discovery in `main`: every sub-directory of the input directory
    is a speaker; in each, the names ending in `.wav` that do not start with
    `processed_` are enumerated, and the i-th is assigned the target
    `processed_<i>.wav` in the same directory. Listings are taken as given,
    in whatever order the filesystem returned them. */
module Discovery {
  import opened PyText
  import Decimal
  import Paths

  const WavSuffix := ".wav"
  const ProcessedPrefix := "processed_"

  /** One name returned by listing the input directory. */
  datatype Entry = File(name: string) | Directory(name: string, listing: seq<string>)

  /** One file to process: its speaker, its position among the speaker's
      original files, where it is read from and where the processed copy goes. */
  datatype Candidate = Candidate(speaker: string, index: nat, source: string, target: string)

  /** The filter at the heart of the listing comprehension. */
  predicate IsCandidate(name: string) {
    EndsWith(name, WavSuffix) && !StartsWith(name, ProcessedPrefix)
  }

  /** The original audio files of one speaker directory, in listing order. */
  function WavFiles(listing: seq<string>): (wavs: seq<string>)
    ensures |wavs| <= |listing|
    ensures forall f :: f in wavs <==> f in listing && IsCandidate(f)
  {
    if listing == [] then []
    else (if IsCandidate(listing[0]) then [listing[0]] else []) + WavFiles(listing[1..])
  }

  /** The name of the processed copy of the i-th original file. */
  function ProcessedName(i: nat): string {
    ProcessedPrefix + Decimal.Show(i) + WavSuffix
  }

  function SpeakerDir(parent: string, speaker: string): string {
    Paths.Join(parent, speaker)
  }

  function TargetPath(parent: string, speaker: string, i: nat): string {
    Paths.Join(SpeakerDir(parent, speaker), ProcessedName(i))
  }

  /** The candidates of one speaker directory, numbered in listing order. */
  function SpeakerCandidates(parent: string, speaker: string, listing: seq<string>): (cs: seq<Candidate>)
    ensures |cs| == |WavFiles(listing)|
    ensures forall i :: 0 <= i < |cs| ==>
              && cs[i].speaker == speaker && cs[i].index == i
              && cs[i].source == Paths.Join(SpeakerDir(parent, speaker), WavFiles(listing)[i])
              && cs[i].target == TargetPath(parent, speaker, i)
  {
    var dir := SpeakerDir(parent, speaker);
    var wavs := WavFiles(listing);
    seq(|wavs|, i requires 0 <= i < |wavs| =>
      Candidate(speaker, i, Paths.Join(dir, wavs[i]), Paths.Join(dir, ProcessedName(i))))
  }

  /** Every candidate of the run: the speakers in listing order, each
      speaker's files in listing order. Plain files at the top level are
      not speakers. */
  function Discover(parent: string, entries: seq<Entry>): seq<Candidate> {
    if entries == [] then [] else EntryCandidates(parent, entries[0]) + Discover(parent, entries[1..])
  }

  function EntryCandidates(parent: string, e: Entry): seq<Candidate> {
    match e
    case File(_) => []
    case Directory(name, listing) => SpeakerCandidates(parent, name, listing)
  }

  /** What a filesystem guarantees of a directory listing: names are non-empty,
      contain no slash, and are pairwise distinct. */
  predicate ValidName(name: string) {
    name != [] && '/' !in name
  }

  predicate WellFormedListing(entries: seq<Entry>) {
    && (forall k :: 0 <= k < |entries| ==> ValidName(entries[k].name))
    && (forall k, l :: 0 <= k < l < |entries| ==> entries[k].name != entries[l].name)
  }

  // The filter.

  /** The filter keeps exactly the names ending in `.wav` that do not start
      with `processed_`, and keeps them in listing order. */
  lemma {:induction false} WavFilesAppend(a: seq<string>, b: seq<string>)
    ensures WavFiles(a + b) == WavFiles(a) + WavFiles(b)
  {
    if a != [] {
      assert (a + b)[1..] == a[1..] + b;
      WavFilesAppend(a[1..], b);
    } else {
      assert a + b == b;
    }
  }

  /** A generated copy is a `.wav` file that the filter nevertheless rejects. */
  lemma ProcessedNameRejected(i: nat)
    ensures EndsWith(ProcessedName(i), WavSuffix)
    ensures !IsCandidate(ProcessedName(i))
  {
    var n := ProcessedName(i);
    assert n[..|ProcessedPrefix|] == ProcessedPrefix;
    assert n[|n| - |WavSuffix|..] == WavSuffix;
  }

  /** Generated copies written into a speaker directory, wherever they
      appear in its listing, leave the enumeration of the original files
      and hence every index and target unchanged. */
  lemma GeneratedFilesInvisible(a: seq<string>, i: nat, b: seq<string>)
    ensures WavFiles(a + [ProcessedName(i)] + b) == WavFiles(a + b)
  {
    ProcessedNameRejected(i);
    WavFilesAppend(a + [ProcessedName(i)], b);
    WavFilesAppend(a, [ProcessedName(i)]);
    WavFilesAppend(a, b);
    assert WavFiles([ProcessedName(i)]) == [];
  }

  // Naming.

  lemma ProcessedNameInjective(i: nat, j: nat)
    ensures ProcessedName(i) == ProcessedName(j) ==> i == j
  {
    if ProcessedName(i) == ProcessedName(j) {
      var p := |ProcessedPrefix|;
      var si, sj := Decimal.Show(i), Decimal.Show(j);
      assert |si| == |sj|;
      assert si == ProcessedName(i)[p..p + |si|];
      assert sj == ProcessedName(j)[p..p + |sj|];
      Decimal.ShowInjective(i, j);
    }
  }

  /** The target of the i-th file of `speaker` is `processed_<i>.wav` inside
      the speaker directory: the directory, one slash, the generated name. */
  lemma TargetShape(parent: string, speaker: string, i: nat)
    requires ValidName(speaker)
    ensures TargetPath(parent, speaker, i)
            == Paths.DirPrefix(parent) + speaker + "/" + ProcessedName(i)
  {
    assert !Paths.IsAbsolute(speaker) by {
      assert speaker[0] in speaker;
    }
    var dir := SpeakerDir(parent, speaker);
    Paths.JoinRelative(parent, speaker);
    assert dir == Paths.DirPrefix(parent) + speaker;
    assert dir[|dir| - 1] == speaker[|speaker| - 1];
    assert speaker[|speaker| - 1] in speaker;
    assert Paths.DirPrefix(dir) == dir + "/";
    assert !Paths.IsAbsolute(ProcessedName(i)) by {
      assert ProcessedName(i)[0] == 'p';
    }
    Paths.JoinRelative(dir, ProcessedName(i));
  }

  /** A name without a slash is recovered from `name + "/" + rest`. */
  lemma SlashSplit(s1: string, n1: string, s2: string, n2: string)
    requires '/' !in s1 && '/' !in s2
    requires s1 + "/" + n1 == s2 + "/" + n2
    ensures s1 == s2 && n1 == n2
  {
    var x := s1 + "/" + n1;
    SplitAtFirst(s1, '/', n1);
    SplitAtFirst(s2, '/', n2);
    assert Split(x, '/')[0] == s1;
    assert Split(x, '/')[0] == s2;
    assert n1 == (s1 + "/" + n1)[|s1| + 1..];
    assert n2 == (s2 + "/" + n2)[|s2| + 1..];
  }

  /** Two speakers' targets never collide, nor do two indices of one speaker. */
  lemma TargetInjective(parent: string, s1: string, i1: nat, s2: string, i2: nat)
    requires ValidName(s1) && ValidName(s2)
    ensures TargetPath(parent, s1, i1) == TargetPath(parent, s2, i2) ==> s1 == s2 && i1 == i2
  {
    var p := Paths.DirPrefix(parent);
    var n1, n2 := ProcessedName(i1), ProcessedName(i2);
    TargetShape(parent, s1, i1);
    TargetShape(parent, s2, i2);
    if TargetPath(parent, s1, i1) == TargetPath(parent, s2, i2) {
      assert s1 == s2 && n1 == n2 by {
        PrefixedSlashSplit(p, s1, n1, s2, n2);
      }
      ProcessedNameInjective(i1, i2);
    }
  }

  lemma PrefixedSlashSplit(p: string, s1: string, n1: string, s2: string, n2: string)
    requires '/' !in s1 && '/' !in s2
    requires p + s1 + "/" + n1 == p + s2 + "/" + n2
    ensures s1 == s2 && n1 == n2
  {
    var t1, t2 := s1 + "/" + n1, s2 + "/" + n2;
    assert p + s1 + "/" + n1 == p + t1;
    assert p + s2 + "/" + n2 == p + t2;
    assert t1 == (p + t1)[|p|..] && t2 == (p + t2)[|p|..];
    SlashSplit(s1, n1, s2, n2);
  }

  // Discovery.

  /** `c` is the candidate a listing entry produces for its `c.index`-th
      original file: the entry is a speaker directory named `c.speaker`, the
      source is that file in the directory and the target is
      `processed_<index>.wav` beside it. */
  predicate FromEntry(parent: string, e: Entry, c: Candidate) {
    && e.Directory?
    && e.name == c.speaker
    && c.index < |WavFiles(e.listing)|
    && c.source == Paths.Join(SpeakerDir(parent, c.speaker), WavFiles(e.listing)[c.index])
    && c.target == TargetPath(parent, c.speaker, c.index)
  }

  lemma EntryShape(parent: string, e: Entry, c: Candidate)
    requires c in EntryCandidates(parent, e)
    ensures FromEntry(parent, e, c)
  {
    var here := EntryCandidates(parent, e);
    var i :| 0 <= i < |here| && here[i] == c;
  }

  /** Each candidate comes from a speaker directory of the listing, as
      `main` computes them: the i-th surviving name of a speaker directory
      `d` is read from `d/<name>` and written to `d/processed_<i>.wav`. */
  lemma {:induction false} DiscoverShape(parent: string, entries: seq<Entry>, c: Candidate)
    requires c in Discover(parent, entries)
    ensures exists k :: 0 <= k < |entries| && FromEntry(parent, entries[k], c)
  {
    var here := EntryCandidates(parent, entries[0]);
    var rest := Discover(parent, entries[1..]);
    assert Discover(parent, entries) == here + rest;
    if c in here {
      EntryShape(parent, entries[0], c);
    } else {
      DiscoverShape(parent, entries[1..], c);
      var j :| 0 <= j < |entries[1..]| && FromEntry(parent, entries[1..][j], c);
      ShiftFromEntry(parent, entries, j, c);
    }
  }

  lemma ShiftFromEntry(parent: string, entries: seq<Entry>, j: nat, c: Candidate)
    requires j + 1 < |entries| && FromEntry(parent, entries[1..][j], c)
    ensures FromEntry(parent, entries[j + 1], c)
  {
    assert entries[j + 1] == entries[1..][j];
  }

  /** Conversely, every original file of every speaker directory is a
      candidate, with its position as index and its own target. */
  lemma {:induction false} DiscoverComplete(parent: string, entries: seq<Entry>, k: nat, i: nat)
    requires k < |entries| && entries[k].Directory?
    requires i < |WavFiles(entries[k].listing)|
    ensures var e := entries[k];
            var dir := SpeakerDir(parent, e.name);
            Candidate(e.name, i, Paths.Join(dir, WavFiles(e.listing)[i]), TargetPath(parent, e.name, i))
              in Discover(parent, entries)
  {
    var e := entries[k];
    var c := Candidate(e.name, i, Paths.Join(SpeakerDir(parent, e.name), WavFiles(e.listing)[i]),
                       TargetPath(parent, e.name, i));
    var here := EntryCandidates(parent, entries[0]);
    var rest := Discover(parent, entries[1..]);
    assert Discover(parent, entries) == here + rest;
    if k == 0 {
      assert here[i] == c;
      assert c in here;
    } else {
      assert entries[1..][k - 1] == e;
      DiscoverComplete(parent, entries[1..], k - 1, i);
      assert c in rest;
    }
  }

  /** Two listings of the input directory that agree entry by entry on the
      name, on being a directory, and on the original files of each speaker
      directory. A later run sees such a listing: the earlier run has
      added `processed_<i>.wav` copies, and nothing else. */
  predicate SameOriginals(e1: seq<Entry>, e2: seq<Entry>) {
    && |e1| == |e2|
    && forall k :: 0 <= k < |e1| ==>
         && e1[k].name == e2[k].name
         && e1[k].Directory? == e2[k].Directory?
         && (e1[k].Directory? && e2[k].Directory? ==> WavFiles(e1[k].listing) == WavFiles(e2[k].listing))
  }

  /** Listings with the same originals give the same candidates. */
  lemma {:induction false} DiscoverSameOriginals(parent: string, e1: seq<Entry>, e2: seq<Entry>)
    requires SameOriginals(e1, e2)
    ensures Discover(parent, e1) == Discover(parent, e2)
  {
    if e1 != [] {
      assert EntryCandidates(parent, e1[0]) == EntryCandidates(parent, e2[0]);
      assert SameOriginals(e1[1..], e2[1..]) by {
        forall k | 0 <= k < |e1[1..]|
          ensures e1[1..][k] == e1[k + 1] && e2[1..][k] == e2[k + 1]
        {
        }
      }
      DiscoverSameOriginals(parent, e1[1..], e2[1..]);
    }
  }

  /** Saving a processed copy into a speaker directory keeps the originals
      of the whole listing. */
  lemma CopySavedKeepsOriginals(entries: seq<Entry>, k: nat, a: seq<string>, i: nat, b: seq<string>)
    requires k < |entries| && entries[k].Directory? && entries[k].listing == a + b
    ensures SameOriginals(entries, entries[k := Directory(entries[k].name, a + [ProcessedName(i)] + b)])
  {
    GeneratedFilesInvisible(a, i, b);
  }

  lemma WellFormedTail(entries: seq<Entry>)
    requires entries != [] && WellFormedListing(entries)
    ensures WellFormedListing(entries[1..])
  {
    forall k, l | 0 <= k < l < |entries[1..]|
      ensures entries[1..][k].name != entries[1..][l].name
    {
      assert entries[1..][k] == entries[k + 1] && entries[1..][l] == entries[l + 1];
    }
  }

  /** One directory's candidates carry its name and are numbered from zero. */
  lemma EntryCandidatesNumbered(parent: string, e: Entry)
    ensures var cs := EntryCandidates(parent, e);
            forall i :: 0 <= i < |cs| ==> cs[i].speaker == e.name && cs[i].index == i
  {
  }

  /** The names of a listing. */
  function Names(entries: seq<Entry>): set<string> {
    if entries == [] then {} else {entries[0].name} + Names(entries[1..])
  }

  lemma {:induction false} NamesMembers(entries: seq<Entry>, n: string)
    ensures n in Names(entries) <==> exists k :: 0 <= k < |entries| && entries[k].name == n
  {
    if entries != [] {
      NamesMembers(entries[1..], n);
      if exists k :: 0 <= k < |entries| && entries[k].name == n {
        var k :| 0 <= k < |entries| && entries[k].name == n;
        if k > 0 {
          assert entries[1..][k - 1] == entries[k];
        }
      }
      if n in Names(entries[1..]) {
        var k :| 0 <= k < |entries[1..]| && entries[1..][k].name == n;
        assert entries[k + 1] == entries[1..][k];
      }
    }
  }

  /** Every candidate's speaker is a name of the listing. */
  lemma {:induction false} DiscoverSpeakers(parent: string, entries: seq<Entry>, c: Candidate)
    requires c in Discover(parent, entries)
    ensures c.speaker in Names(entries)
  {
    var here := EntryCandidates(parent, entries[0]);
    var rest := Discover(parent, entries[1..]);
    assert Discover(parent, entries) == here + rest;
    if c in here {
      var i :| 0 <= i < |here| && here[i] == c;
      assert c.speaker == entries[0].name;
    } else {
      DiscoverSpeakers(parent, entries[1..], c);
    }
  }

  /** A later directory's candidates never belong to the first speaker. */
  lemma LaterSpeakersDiffer(parent: string, entries: seq<Entry>, c: Candidate)
    requires entries != [] && WellFormedListing(entries)
    requires c in Discover(parent, entries[1..])
    ensures c.speaker != entries[0].name
  {
    DiscoverSpeakers(parent, entries[1..], c);
    FirstNameFresh(entries);
  }

  lemma FirstNameFresh(entries: seq<Entry>)
    requires entries != [] && WellFormedListing(entries)
    ensures entries[0].name !in Names(entries[1..])
  {
    NamesMembers(entries[1..], entries[0].name);
    forall k | 0 <= k < |entries[1..]| ensures entries[1..][k].name != entries[0].name {
      assert entries[1..][k] == entries[k + 1];
    }
  }

  /** No two candidates share a speaker and an index. */
  predicate KeysDistinct(cs: seq<Candidate>) {
    forall i, j :: 0 <= i < j < |cs| ==> cs[i].speaker != cs[j].speaker || cs[i].index != cs[j].index
  }

  /** One directory's numbered candidates followed by other speakers' ones. */
  lemma KeysDistinctAppend(here: seq<Candidate>, rest: seq<Candidate>, name: string)
    requires forall i :: 0 <= i < |here| ==> here[i].speaker == name && here[i].index == i
    requires forall c :: c in rest ==> c.speaker != name
    requires KeysDistinct(rest)
    ensures KeysDistinct(here + rest)
  {
    var cs := here + rest;
    forall i, j | 0 <= i < j < |cs|
      ensures cs[i].speaker != cs[j].speaker || cs[i].index != cs[j].index
    {
      if j < |here| {
        assert cs[i] == here[i] && cs[j] == here[j];
      } else if i >= |here| {
        assert cs[i] == rest[i - |here|] && cs[j] == rest[j - |here|];
      } else {
        assert cs[i] == here[i] && cs[j] == rest[j - |here|];
        assert cs[j] in rest;
      }
    }
  }

  /** Distinct candidates of one run have distinct (speaker, index) pairs. */
  lemma {:induction false} DiscoverKeysDistinct(parent: string, entries: seq<Entry>)
    requires WellFormedListing(entries)
    ensures KeysDistinct(Discover(parent, entries))
  {
    if entries != [] {
      var here := EntryCandidates(parent, entries[0]);
      var rest := Discover(parent, entries[1..]);
      WellFormedTail(entries);
      EntryCandidatesNumbered(parent, entries[0]);
      DiscoverKeysDistinct(parent, entries[1..]);
      forall c | c in rest ensures c.speaker != entries[0].name {
        LaterSpeakersDiffer(parent, entries, c);
      }
      KeysDistinctAppend(here, rest, entries[0].name);
      assert Discover(parent, entries) == here + rest;
    }
  }

  /** Every candidate of one run is written to a target of its own. */
  lemma DiscoverTargetsDistinct(parent: string, entries: seq<Entry>)
    requires WellFormedListing(entries)
    ensures var cs := Discover(parent, entries);
            forall i, j :: 0 <= i < j < |cs| ==> cs[i].target != cs[j].target
  {
    var cs := Discover(parent, entries);
    DiscoverKeysDistinct(parent, entries);
    forall i, j | 0 <= i < j < |cs| ensures cs[i].target != cs[j].target {
      assert cs[i] in cs && cs[j] in cs;
      DiscoverShape(parent, entries, cs[i]);
      DiscoverShape(parent, entries, cs[j]);
      var ki :| 0 <= ki < |entries| && FromEntry(parent, entries[ki], cs[i]);
      var kj :| 0 <= kj < |entries| && FromEntry(parent, entries[kj], cs[j]);
      TargetInjective(parent, cs[i].speaker, cs[i].index, cs[j].speaker, cs[j].index);
    }
  }
}

=== FILE: driver.dfy ===
/** `main`'s loop: the processed set is read from the manifest once, then every
    discovered candidate passes the resumption gate and, unless skipped, the
    per-file pipeline; each success is appended to the manifest at once, and
    nothing is written for a skipped or failed candidate. */
module Driver {
  import opened Wrappers
  import opened PyText
  import opened Manifest
  import opened Discovery
  import opened Pipeline

  /** The resumption gate, then `process_wav_file`. */
  function Decide(snapshot: set<string>, force: bool, env: Collaborators, rate: nat, c: Candidate): (o: Outcome)
    ensures o.AlreadyProcessed? <==> c.target in snapshot && !force
  {
    if c.target in snapshot && !force then AlreadyProcessed
    else ProcessWavFile(env, rate, c.source, c.target)
  }

  /** The record written for a candidate, if any (`if annotated_text:`). */
  function EntryOf(c: Candidate, o: Outcome): (e: Option<string>)
    ensures e.Some? <==> o.Annotated? && o.annotation != []
  {
    match o.Result()
    case None => None
    case Some(a) => if a != [] then Some(EntryLine(c.target, c.speaker, a)) else None
  }

  /** The lines one candidate contributes to the manifest: its record, or none. */
  function Written(c: Candidate, o: Outcome): seq<string> {
    match EntryOf(c, o) case Some(l) => [l] case None => []
  }

  /** The records of a run, in processing order. */
  function NewEntries(cs: seq<Candidate>, os: seq<Outcome>): seq<string>
    requires |cs| == |os|
  {
    if cs == [] then [] else Written(cs[0], os[0]) + NewEntries(cs[1..], os[1..])
  }

  /** The targets recorded by a run. */
  function RecordedTargets(cs: seq<Candidate>, os: seq<Outcome>): set<string>
    requires |cs| == |os|
  {
    if cs == [] then {}
    else (if EntryOf(cs[0], os[0]).Some? then {cs[0].target} else {}) + RecordedTargets(cs[1..], os[1..])
  }

  /** One iteration's effect on the manifest file. */
  function Step(m: Option<string>, c: Candidate, o: Outcome): Option<string> {
    match EntryOf(c, o)
    case Some(l) => AppendLine(m, l)
    case None => m
  }

  /** The manifest file after the run, and what happened to each candidate. */
  datatype RunResult = RunResult(manifest: Option<string>, outcomes: seq<Outcome>)

  /** The loop over candidates. Every decision uses the same start-up
      snapshot, so a record appended during the run never causes a skip in
      that run; the file only ever grows by the run's records, in order. */
  function Run(snapshot: set<string>, force: bool, env: Collaborators, rate: nat,
               cs: seq<Candidate>, m: Option<string>): (r: RunResult)
    ensures |r.outcomes| == |cs|
    ensures forall i :: 0 <= i < |cs| ==> r.outcomes[i] == Decide(snapshot, force, env, rate, cs[i])
    ensures r.manifest == AppendAll(m, NewEntries(cs, r.outcomes))
    decreases |cs|
  {
    if cs == [] then RunResult(m, [])
    else
      var o := Decide(snapshot, force, env, rate, cs[0]);
      var rest := Run(snapshot, force, env, rate, cs[1..], Step(m, cs[0], o));
      var os := [o] + rest.outcomes;
      assert os[1..] == rest.outcomes;
      assert forall i :: 1 <= i < |cs| ==> cs[i] == cs[1..][i - 1];
      var later := NewEntries(cs[1..], rest.outcomes);
      assert AppendAll(Step(m, cs[0], o), later) == AppendAll(m, NewEntries(cs, os)) by {
        var e := EntryOf(cs[0], o);
        if e.Some? {
          assert NewEntries(cs, os) == [e.value] + later;
          AppendAllCons(m, e.value, later);
        } else {
          assert NewEntries(cs, os) == later;
        }
      }
      RunResult(rest.manifest, os)
  }

  /** `main`: snapshot, discovery, loop. */
  function Drive(parent: string, entries: seq<Entry>, force: bool, env: Collaborators, rate: nat,
                 m: Option<string>): (r: RunResult)
    ensures |r.outcomes| == |Discover(parent, entries)|
    ensures forall i :: 0 <= i < |r.outcomes| && r.outcomes[i].AlreadyProcessed? ==>
              !force && m.Some? && Discover(parent, entries)[i].target in LoadProcessed(m)
  {
    Run(LoadProcessed(m), force, env, rate, Discover(parent, entries), m)
  }

  /** A later listing with the same originals, such as one that also
      shows the copies an earlier run saved, drives the same run. */
  lemma DriveSameOriginals(parent: string, e1: seq<Entry>, e2: seq<Entry>, force: bool, env: Collaborators,
                           rate: nat, m: Option<string>)
    requires SameOriginals(e1, e2)
    ensures Drive(parent, e1, force, env, rate, m) == Drive(parent, e2, force, env, rate, m)
  {
    DiscoverSameOriginals(parent, e1, e2);
  }

  // One candidate.

  /** A candidate already in the snapshot is skipped without running the
      pipeline, unless reprocessing is forced; it writes nothing. */
  lemma ResumptionGate(snapshot: set<string>, force: bool, env: Collaborators, rate: nat,
                       cs: seq<Candidate>, m: Option<string>, i: nat)
    requires i < |cs| && cs[i].target in snapshot && !force
    ensures var r := Run(snapshot, force, env, rate, cs, m);
            && r.outcomes[i] == AlreadyProcessed
            && !r.outcomes[i].Saved()
            && EntryOf(cs[i], r.outcomes[i]) == None
  {
  }

  /** A candidate that passes the gate gets exactly `process_wav_file`'s
      outcome, and its record is written exactly when that returned an
      annotation: the truthiness test never rejects one. */
  lemma RecordedIffAnnotated(snapshot: set<string>, force: bool, env: Collaborators, rate: nat, c: Candidate)
    requires c.target !in snapshot || force
    ensures var o := Decide(snapshot, force, env, rate, c);
            && o == ProcessWavFile(env, rate, c.source, c.target)
            && (EntryOf(c, o).Some? <==> o.Result().Some?)
            && (EntryOf(c, o).Some? ==> EntryOf(c, o).value == EntryLine(c.target, c.speaker, o.Result().value))
  {
    var o := Decide(snapshot, force, env, rate, c);
    if o.Annotated? {
      var t := env.transcribe(c.target).value;
      assert ParseAnnotation(o.annotation) == Some(t);
    }
  }

  /** Audio longer than the ceiling never yields a record and is never saved
      or transcribed, whatever the model would have said. */
  lemma TooLongNeverRecorded(snapshot: set<string>, force: bool, env: Collaborators, rate: nat, c: Candidate)
    requires env.decode(c.source).Some? && 0 < rate
    requires env.decode(c.source).value > MaxSeconds * rate
    ensures var o := Decide(snapshot, force, env, rate, c);
            !o.Saved() && EntryOf(c, o) == None
  {
  }

  /** A language without a token never yields a record. */
  lemma UnsupportedNeverRecorded(snapshot: set<string>, force: bool, env: Collaborators, rate: nat, c: Candidate)
    requires env.transcribe(c.target).Some? && env.transcribe(c.target).value.lang !in LangTokens
    ensures EntryOf(c, Decide(snapshot, force, env, rate, c)) == None
  {
  }

  // The manifest file.

  lemma {:induction false} NewEntriesMembers(cs: seq<Candidate>, os: seq<Outcome>, l: string)
    requires |cs| == |os|
    ensures l in NewEntries(cs, os) <==> exists i :: 0 <= i < |cs| && EntryOf(cs[i], os[i]) == Some(l)
  {
    if cs != [] {
      NewEntriesMembers(cs[1..], os[1..], l);
      if exists i :: 0 <= i < |cs| && EntryOf(cs[i], os[i]) == Some(l) {
        var i :| 0 <= i < |cs| && EntryOf(cs[i], os[i]) == Some(l);
        if i > 0 {
          assert cs[1..][i - 1] == cs[i] && os[1..][i - 1] == os[i];
        }
      }
      if l in NewEntries(cs[1..], os[1..]) {
        var i :| 0 <= i < |cs[1..]| && EntryOf(cs[1..][i], os[1..][i]) == Some(l);
        assert cs[i + 1] == cs[1..][i] && os[i + 1] == os[1..][i];
      }
    }
  }

  /** The fold's first step: the first candidate's record, if any, is
      appended before the rest are handled. */
  lemma RunFirstStep(snapshot: set<string>, force: bool, env: Collaborators, rate: nat,
                     cs: seq<Candidate>, m: Option<string>)
    requires cs != []
    ensures var m1 := Step(m, cs[0], Decide(snapshot, force, env, rate, cs[0]));
            Run(snapshot, force, env, rate, cs, m).manifest == Run(snapshot, force, env, rate, cs[1..], m1).manifest
  {
  }

  /** Stopping after any candidate leaves exactly the records of the
      candidates completed so far: the run is a fold whose prefix is a run. */
  lemma {:induction false} RunSplit(snapshot: set<string>, force: bool, env: Collaborators, rate: nat,
                                    cs: seq<Candidate>, m: Option<string>, k: nat)
    requires k <= |cs|
    ensures var head := Run(snapshot, force, env, rate, cs[..k], m);
            var tail := Run(snapshot, force, env, rate, cs[k..], head.manifest);
            var whole := Run(snapshot, force, env, rate, cs, m);
            whole.manifest == tail.manifest
    decreases k
  {
    if k > 0 {
      var m1 := Step(m, cs[0], Decide(snapshot, force, env, rate, cs[0]));
      var cs1 := cs[1..];
      RunSplit(snapshot, force, env, rate, cs1, m1, k - 1);
      assert cs[..k][0] == cs[0];
      assert cs1[..k - 1] == cs[..k][1..];
      assert cs1[k - 1..] == cs[k..];
      RunFirstStep(snapshot, force, env, rate, cs[..k], m);
      RunFirstStep(snapshot, force, env, rate, cs, m);
    } else {
      assert cs[k..] == cs;
      assert cs[..k] == [];
    }
  }

  /** The manifest only grows: its old contents stay a prefix, and a run in
      which nothing succeeded leaves the file exactly as it was, even
      uncreated. */
  lemma AppendOnly(snapshot: set<string>, force: bool, env: Collaborators, rate: nat,
                   cs: seq<Candidate>, m: Option<string>)
    ensures var r := Run(snapshot, force, env, rate, cs, m);
            && Contents(m) <= Contents(r.manifest)
            && (m.Some? ==> r.manifest.Some?)
            && ((forall i :: 0 <= i < |cs| ==> EntryOf(cs[i], r.outcomes[i]).None?) ==> r.manifest == m)
  {
    var r := Run(snapshot, force, env, rate, cs, m);
    if forall i :: 0 <= i < |cs| ==> EntryOf(cs[i], r.outcomes[i]).None? {
      NothingRecorded(cs, r.outcomes);
    }
  }

  /** A run in which no candidate yields a record has no new lines. */
  lemma {:induction false} NothingRecorded(cs: seq<Candidate>, os: seq<Outcome>)
    requires |cs| == |os|
    requires forall i :: 0 <= i < |cs| ==> EntryOf(cs[i], os[i]).None?
    ensures NewEntries(cs, os) == []
  {
    if cs != [] {
      assert forall i :: 0 <= i < |cs[1..]| ==> cs[1..][i] == cs[i + 1] && os[1..][i] == os[i + 1];
      NothingRecorded(cs[1..], os[1..]);
    }
  }

  // Reading the manifest back.

  /** What the next start-up needs of a candidate for its record to read
      back cleanly: a target that is its own key, and a speaker and
      transcription without line breaks. */
  predicate Clean(env: Collaborators, c: Candidate) {
    && KeySafe(c.target)
    && NoBreaks(c.speaker)
    && (env.transcribe(c.target).Some? ==> NoBreaks(env.transcribe(c.target).value.text))
  }

  lemma NoBreaksAppend(a: string, b: string)
    requires NoBreaks(a) && NoBreaks(b)
    ensures NoBreaks(a + b)
  {
    forall k | 0 <= k < |a + b| ensures !IsLineBreak((a + b)[k]) {
      if k < |a| {
        assert (a + b)[k] == a[k];
      } else {
        assert (a + b)[k] == b[k - |a|];
      }
    }
  }

  lemma TokenNoBreaks(lang: string)
    requires lang in LangTokens
    ensures NoBreaks(LangTokens[lang])
  {
  }

  /** A record built from break-free parts is exactly one line. */
  lemma EntryLineSingle(path: string, speaker: string, lang: string, text: string)
    requires NoBreaks(path) && NoBreaks(speaker) && NoBreaks(text) && lang in LangTokens
    ensures SingleLine(EntryLine(path, speaker, Annotate(lang, text)))
  {
    var tok := LangTokens[lang];
    TokenNoBreaks(lang);
    var l := EntryLine(path, speaker, Annotate(lang, text));
    var body := path + [Sep] + speaker + [Sep] + tok + text + tok;
    assert l == body + "\n";
    NoBreaksAppend(path, [Sep]);
    NoBreaksAppend(path + [Sep], speaker);
    NoBreaksAppend(path + [Sep] + speaker, [Sep]);
    NoBreaksAppend(path + [Sep] + speaker + [Sep], tok);
    NoBreaksAppend(path + [Sep] + speaker + [Sep] + tok, text);
    NoBreaksAppend(path + [Sep] + speaker + [Sep] + tok + text, tok);
    assert l[..|l| - 1] == body;
  }

  /** A clean candidate's record is one line and reads back as its target. */
  lemma CleanEntry(snapshot: set<string>, force: bool, env: Collaborators, rate: nat, c: Candidate)
    requires Clean(env, c)
    ensures var e := EntryOf(c, Decide(snapshot, force, env, rate, c));
            e.Some? ==> SingleLine(e.value) && Key(e.value) == c.target
  {
    var o := Decide(snapshot, force, env, rate, c);
    var e := EntryOf(c, o);
    if e.Some? {
      var t := env.transcribe(c.target).value;
      assert ParseAnnotation(o.annotation) == Some(t);
      ParseAnnotationInverse(o.annotation);
      EntryLineSingle(c.target, c.speaker, t.lang, t.text);
      EntryKey(c.target, c.speaker, o.annotation);
    }
  }

  /** Parsing an annotation succeeds only on the exact text `Annotate` writes. */
  lemma ParseAnnotationInverse(a: string)
    requires ParseAnnotation(a).Some?
    ensures var t := ParseAnnotation(a).value;
            t.lang in LangTokens && a == Annotate(t.lang, t.text)
  {
    var t := ParseAnnotation(a).value;
    var tok := LangTokens[t.lang];
    assert a[..4] == tok && a[|a| - 5..|a| - 1] == tok;
    assert a == a[..4] + a[4..|a| - 5] + a[|a| - 5..|a| - 1] + [a[|a| - 1]];
  }

  lemma {:induction false} RecordedMembers(cs: seq<Candidate>, os: seq<Outcome>, t: string)
    requires |cs| == |os|
    ensures t in RecordedTargets(cs, os) <==>
              exists i :: 0 <= i < |cs| && EntryOf(cs[i], os[i]).Some? && cs[i].target == t
  {
    if cs != [] {
      RecordedMembers(cs[1..], os[1..], t);
      if exists i :: 0 <= i < |cs| && EntryOf(cs[i], os[i]).Some? && cs[i].target == t {
        var i :| 0 <= i < |cs| && EntryOf(cs[i], os[i]).Some? && cs[i].target == t;
        if i > 0 {
          assert cs[1..][i - 1] == cs[i] && os[1..][i - 1] == os[i];
        }
      }
      if t in RecordedTargets(cs[1..], os[1..]) {
        var i :| 0 <= i < |cs[1..]| && EntryOf(cs[1..][i], os[1..][i]).Some? && cs[1..][i].target == t;
        assert cs[i + 1] == cs[1..][i] && os[i + 1] == os[1..][i];
      }
    }
  }

  /** The records of a run are single lines when each record is. */
  lemma {:induction false} NewEntriesLines(cs: seq<Candidate>, os: seq<Outcome>)
    requires |cs| == |os|
    requires forall i :: 0 <= i < |cs| && EntryOf(cs[i], os[i]).Some? ==> SingleLine(EntryOf(cs[i], os[i]).value)
    ensures forall k :: 0 <= k < |NewEntries(cs, os)| ==> SingleLine(NewEntries(cs, os)[k])
  {
    forall l | l in NewEntries(cs, os) ensures SingleLine(l) {
      NewEntriesMembers(cs, os, l);
    }
  }

  /** Every record of the run is keyed by its candidate's target. */
  predicate KeyedByTarget(cs: seq<Candidate>, os: seq<Outcome>)
    requires |cs| == |os|
  {
    forall i :: 0 <= i < |cs| && EntryOf(cs[i], os[i]).Some? ==> Key(EntryOf(cs[i], os[i]).value) == cs[i].target
  }

  lemma KeyedByTargetTail(cs: seq<Candidate>, os: seq<Outcome>)
    requires |cs| == |os| && cs != [] && KeyedByTarget(cs, os)
    ensures KeyedByTarget(cs[1..], os[1..])
  {
    forall i | 0 <= i < |cs[1..]| && EntryOf(cs[1..][i], os[1..][i]).Some?
      ensures Key(EntryOf(cs[1..][i], os[1..][i]).value) == cs[1..][i].target
    {
      assert cs[1..][i] == cs[i + 1] && os[1..][i] == os[i + 1];
    }
  }

  lemma WrittenKeys(c: Candidate, o: Outcome)
    requires EntryOf(c, o).Some? ==> Key(EntryOf(c, o).value) == c.target
    ensures Keys(Written(c, o)) == if EntryOf(c, o).Some? then {c.target} else {}
  {
    var e := EntryOf(c, o);
    if e.Some? {
      assert Written(c, o) == [e.value];
      assert Keys([e.value]) == {Key(e.value)} + Keys([]);
    } else {
      assert Written(c, o) == [];
    }
  }

  /** When every record is keyed by its target, the records of a run read
      back as exactly the recorded targets. */
  lemma {:induction false} NewEntriesKeys(cs: seq<Candidate>, os: seq<Outcome>)
    requires |cs| == |os|
    requires KeyedByTarget(cs, os)
    ensures Keys(NewEntries(cs, os)) == RecordedTargets(cs, os)
  {
    if cs != [] {
      KeyedByTargetTail(cs, os);
      NewEntriesKeys(cs[1..], os[1..]);
      assert EntryOf(cs[0], os[0]).Some? ==> Key(EntryOf(cs[0], os[0]).value) == cs[0].target;
      WrittenKeys(cs[0], os[0]);
      KeysAppend(Written(cs[0], os[0]), NewEntries(cs[1..], os[1..]));
    }
  }

  /** After a run in which every candidate is clean, the next start-up reads
      the old processed set plus exactly the targets recorded in this run. */
  lemma SnapshotAfterRun(snapshot: set<string>, force: bool, env: Collaborators, rate: nat,
                         cs: seq<Candidate>, m: Option<string>)
    requires Terminated(Contents(m))
    requires forall i :: 0 <= i < |cs| ==> Clean(env, cs[i])
    ensures var r := Run(snapshot, force, env, rate, cs, m);
            && LoadProcessed(r.manifest) == LoadProcessed(m) + RecordedTargets(cs, r.outcomes)
            && Terminated(Contents(r.manifest))
  {
    var r := Run(snapshot, force, env, rate, cs, m);
    forall i | 0 <= i < |cs|
      ensures EntryOf(cs[i], r.outcomes[i]).Some? ==>
                SingleLine(EntryOf(cs[i], r.outcomes[i]).value) && Key(EntryOf(cs[i], r.outcomes[i]).value) == cs[i].target
    {
      CleanEntry(snapshot, force, env, rate, cs[i]);
    }
    NewEntriesLines(cs, r.outcomes);
    NewEntriesKeys(cs, r.outcomes);
    LoadAfterAppendAll(m, NewEntries(cs, r.outcomes));
  }

  /** The same, for a whole `main` run. */
  lemma SnapshotAfterDrive(parent: string, entries: seq<Entry>, force: bool, env: Collaborators, rate: nat,
                           m: Option<string>)
    requires Terminated(Contents(m))
    requires forall c :: c in Discover(parent, entries) ==> Clean(env, c)
    ensures var r := Drive(parent, entries, force, env, rate, m);
            LoadProcessed(r.manifest) == LoadProcessed(m) + RecordedTargets(Discover(parent, entries), r.outcomes)
  {
    var cs := Discover(parent, entries);
    forall i | 0 <= i < |cs| ensures Clean(env, cs[i]) {
      assert cs[i] in cs;
    }
    SnapshotAfterRun(LoadProcessed(m), force, env, rate, cs, m);
  }

  /** One candidate on a second run whose snapshot holds the first run's
      snapshot and the first run's record for it, if any: it is skipped or
      fails as before, and is never recorded twice. */
  lemma RerunCandidate(s1: set<string>, force: bool, s2: set<string>, env: Collaborators, rate: nat, c: Candidate)
    requires s1 <= s2
    requires EntryOf(c, Decide(s1, force, env, rate, c)).Some? ==> c.target in s2
    ensures var o1 := Decide(s1, force, env, rate, c);
            var o2 := Decide(s2, false, env, rate, c);
            && EntryOf(c, o2).None?
            && (o2.AlreadyProcessed? || o2 == o1)
            && (EntryOf(c, o1).Some? ==> o2 == AlreadyProcessed)
  {
  }

  /** A second run without forcing, over candidates whose records from the
      first run its snapshot holds, writes nothing at all. */
  lemma RerunQuiet(s1: set<string>, force: bool, s2: set<string>, env: Collaborators, rate: nat,
                   cs: seq<Candidate>, m: Option<string>, m2: Option<string>)
    requires s1 <= s2
    requires RecordedTargets(cs, Run(s1, force, env, rate, cs, m).outcomes) <= s2
    ensures var first := Run(s1, force, env, rate, cs, m);
            var second := Run(s2, false, env, rate, cs, m2);
            && second.manifest == m2
            && (forall i :: 0 <= i < |cs| ==>
                  second.outcomes[i].AlreadyProcessed? || second.outcomes[i] == first.outcomes[i])
            && (forall i :: 0 <= i < |cs| && EntryOf(cs[i], first.outcomes[i]).Some? ==>
                  second.outcomes[i] == AlreadyProcessed)
  {
    var first := Run(s1, force, env, rate, cs, m);
    var second := Run(s2, false, env, rate, cs, m2);
    forall i | 0 <= i < |cs|
      ensures EntryOf(cs[i], second.outcomes[i]).None?
      ensures second.outcomes[i].AlreadyProcessed? || second.outcomes[i] == first.outcomes[i]
      ensures EntryOf(cs[i], first.outcomes[i]).Some? ==> second.outcomes[i] == AlreadyProcessed
    {
      if EntryOf(cs[i], first.outcomes[i]).Some? {
        RecordedMembers(cs, first.outcomes, cs[i].target);
      }
      RerunCandidate(s1, force, s2, env, rate, cs[i]);
    }
    AppendOnly(s2, false, env, rate, cs, m2);
  }

  /** Running again, with the same collaborators and without forcing, over
      a listing with the same originals (the first run's copies may now
      show in it) records nothing: every candidate recorded before is
      skipped without being transcribed, and every other one is either
      skipped or fails exactly as it did. */
  lemma RerunRecordsNothing(parent: string, entries: seq<Entry>, entries2: seq<Entry>, force: bool,
                            env: Collaborators, rate: nat, m: Option<string>)
    requires Terminated(Contents(m))
    requires forall c :: c in Discover(parent, entries) ==> Clean(env, c)
    requires SameOriginals(entries, entries2)
    ensures var cs := Discover(parent, entries);
            var first := Drive(parent, entries, force, env, rate, m);
            var second := Drive(parent, entries2, false, env, rate, first.manifest);
            && |second.outcomes| == |cs|
            && second.manifest == first.manifest
            && (forall i :: 0 <= i < |cs| ==>
                  second.outcomes[i].AlreadyProcessed? || second.outcomes[i] == first.outcomes[i])
            && (forall i :: 0 <= i < |cs| && EntryOf(cs[i], first.outcomes[i]).Some? ==>
                  second.outcomes[i] == AlreadyProcessed)
  {
    var cs := Discover(parent, entries);
    var s1 := LoadProcessed(m);
    var first := Drive(parent, entries, force, env, rate, m);
    var s2 := LoadProcessed(first.manifest);
    DriveSameOriginals(parent, entries, entries2, false, env, rate, first.manifest);
    SnapshotAfterDrive(parent, entries, force, env, rate, m);
    assert first == Run(s1, force, env, rate, cs, m);
    assert Drive(parent, entries2, false, env, rate, first.manifest) == Run(s2, false, env, rate, cs, first.manifest);
    RerunQuiet(s1, force, s2, env, rate, cs, m, first.manifest);
  }

  /** Without forcing, a run's snapshot holding the targets an earlier run
      recorded keeps the second run off those candidates, and the second
      run records only targets its snapshot lacks, whatever the
      collaborators of either run. */
  lemma RecordedSkippedLater(s1: set<string>, force: bool, env: Collaborators, s2: set<string>,
                             env2: Collaborators, rate: nat, cs: seq<Candidate>, m: Option<string>,
                             m2: Option<string>)
    requires RecordedTargets(cs, Run(s1, force, env, rate, cs, m).outcomes) <= s2
    ensures var first := Run(s1, force, env, rate, cs, m);
            var second := Run(s2, false, env2, rate, cs, m2);
            && (forall i :: 0 <= i < |cs| && EntryOf(cs[i], first.outcomes[i]).Some? ==>
                  second.outcomes[i] == AlreadyProcessed)
            && (forall i :: 0 <= i < |cs| && EntryOf(cs[i], second.outcomes[i]).Some? ==>
                  cs[i].target !in s2)
  {
    var first := Run(s1, force, env, rate, cs, m);
    forall i | 0 <= i < |cs| && EntryOf(cs[i], first.outcomes[i]).Some?
      ensures cs[i].target in s2
    {
      RecordedMembers(cs, first.outcomes, cs[i].target);
    }
  }

  /** A second run without forcing, even when the collaborators behave
      differently (another model, another disk, another day), never
      transcribes a candidate the first run recorded, and never records a
      target the manifest it starts from already holds. */
  lemma RerunOtherCollaborators(parent: string, entries: seq<Entry>, entries2: seq<Entry>, force: bool,
                                env: Collaborators, env2: Collaborators, rate: nat, m: Option<string>)
    requires Terminated(Contents(m))
    requires forall c :: c in Discover(parent, entries) ==> Clean(env, c)
    requires SameOriginals(entries, entries2)
    ensures var cs := Discover(parent, entries);
            var first := Drive(parent, entries, force, env, rate, m);
            var second := Drive(parent, entries2, false, env2, rate, first.manifest);
            && |second.outcomes| == |cs|
            && (forall i :: 0 <= i < |cs| && EntryOf(cs[i], first.outcomes[i]).Some? ==>
                  second.outcomes[i] == AlreadyProcessed)
            && (forall i :: 0 <= i < |cs| && EntryOf(cs[i], second.outcomes[i]).Some? ==>
                  cs[i].target !in LoadProcessed(first.manifest))
  {
    var cs := Discover(parent, entries);
    var first := Drive(parent, entries, force, env, rate, m);
    var second := Drive(parent, entries2, false, env2, rate, first.manifest);
    var s2 := LoadProcessed(first.manifest);
    DriveSameOriginals(parent, entries, entries2, false, env2, rate, first.manifest);
    SnapshotAfterDrive(parent, entries, force, env, rate, m);
    assert first == Run(LoadProcessed(m), force, env, rate, cs, m);
    assert second == Run(s2, false, env2, rate, cs, first.manifest);
    RecordedSkippedLater(LoadProcessed(m), force, env, s2, env2, rate, cs, m, first.manifest);
  }

  /** Snapshots that lead every candidate to the same decision give the same
      run. */
  lemma RunSameDecisions(s1: set<string>, s2: set<string>, force: bool, env: Collaborators, rate: nat,
                         cs: seq<Candidate>, m: Option<string>)
    requires forall i :: 0 <= i < |cs| ==> Decide(s1, force, env, rate, cs[i]) == Decide(s2, force, env, rate, cs[i])
    ensures Run(s1, force, env, rate, cs, m) == Run(s2, force, env, rate, cs, m)
  {
    assert Run(s1, force, env, rate, cs, m).outcomes == Run(s2, force, env, rate, cs, m).outcomes;
  }

  /** The candidates a stopped run never reached are decided alike under
      its start-up snapshot and under that snapshot plus its records, as
      long as targets are distinct. */
  lemma RestartTail(s: set<string>, env: Collaborators, rate: nat, cs: seq<Candidate>, k: nat,
                    m: Option<string>, m1: Option<string>)
    requires k <= |cs|
    requires forall i, j :: 0 <= i < j < |cs| ==> cs[i].target != cs[j].target
    ensures var head := Run(s, false, env, rate, cs[..k], m);
            var s2 := s + RecordedTargets(cs[..k], head.outcomes);
            Run(s2, false, env, rate, cs[k..], m1) == Run(s, false, env, rate, cs[k..], m1)
  {
    var head := Run(s, false, env, rate, cs[..k], m);
    var s2 := s + RecordedTargets(cs[..k], head.outcomes);
    forall j | 0 <= j < |cs[k..]|
      ensures Decide(s2, false, env, rate, cs[k..][j]) == Decide(s, false, env, rate, cs[k..][j])
    {
      var c := cs[k..][j];
      assert c == cs[k + j];
      assert forall i :: 0 <= i < k ==> cs[..k][i].target != c.target by {
        forall i | 0 <= i < k ensures cs[..k][i].target != c.target {
          assert cs[..k][i] == cs[i];
        }
      }
      RecordedMembers(cs[..k], head.outcomes, c.target);
    }
    RunSameDecisions(s2, s, false, env, rate, cs[k..], m1);
  }

  /** Restarting without forcing after a run that stopped part-way (an
      exception, a kill) ends with the manifest one uninterrupted run would
      have written: the candidates already completed write nothing again,
      and the rest are decided exactly as before. */
  lemma RestartResumes(parent: string, entries: seq<Entry>, entries2: seq<Entry>, env: Collaborators, rate: nat,
                       m: Option<string>, k: nat)
    requires Terminated(Contents(m)) && WellFormedListing(entries)
    requires forall c :: c in Discover(parent, entries) ==> Clean(env, c)
    requires SameOriginals(entries, entries2)
    requires k <= |Discover(parent, entries)|
    ensures var partial := Run(LoadProcessed(m), false, env, rate, Discover(parent, entries)[..k], m);
            Drive(parent, entries2, false, env, rate, partial.manifest).manifest
            == Drive(parent, entries, false, env, rate, m).manifest
  {
    var cs := Discover(parent, entries);
    var s := LoadProcessed(m);
    var head := Run(s, false, env, rate, cs[..k], m);
    DriveSameOriginals(parent, entries, entries2, false, env, rate, head.manifest);
    forall i | 0 <= i < |cs[..k]| ensures Clean(env, cs[..k][i]) {
      assert cs[..k][i] in cs;
    }
    SnapshotAfterRun(s, false, env, rate, cs[..k], m);
    var s2 := LoadProcessed(head.manifest);
    RunSplit(s, false, env, rate, cs, m, k);
    RunSplit(s2, false, env, rate, cs, head.manifest, k);
    RerunQuiet(s, false, s2, env, rate, cs[..k], m, head.manifest);
    DiscoverTargetsDistinct(parent, entries);
    RestartTail(s, env, rate, cs, k, m, head.manifest);
  }

  // The worked example: a speaker directory holds `a` (12 s of English)
  // and `b` (25 s), in that listing order.

  lemma ExampleCandidates(parent: string, speaker: string, a: string, b: string)
    requires IsCandidate(a) && IsCandidate(b)
    ensures var dir := SpeakerDir(parent, speaker);
            Discover(parent, [Directory(speaker, [a, b])])
            == [Candidate(speaker, 0, Paths.Join(dir, a), TargetPath(parent, speaker, 0)),
                Candidate(speaker, 1, Paths.Join(dir, b), TargetPath(parent, speaker, 1))]
  {
    assert WavFiles([b]) == [b] + WavFiles([]);
    assert WavFiles([a, b]) == [a] + WavFiles([b]);
    var cs := SpeakerCandidates(parent, speaker, [a, b]);
    assert Discover(parent, [Directory(speaker, [a, b])]) == cs + Discover(parent, []);
  }

  lemma EnglishFile(env: Collaborators, rate: nat, source: string, target: string, samples: nat, text: string)
    requires env.decode(source) == Some(samples) && 0 < rate && samples <= MaxSeconds * rate
    requires env.save(target) && env.transcribe(target) == Some(Transcript("en", text))
    ensures ProcessWavFile(env, rate, source, target) == Annotated("[EN]" + text + "[EN]\n")
  {
    assert Annotate("en", text) == "[EN]" + text + "[EN]\n";
  }

  /** A two-candidate run that annotates the first file and rejects the
      second by duration appends exactly the first file's record. */
  lemma RecordThenReject(snapshot: set<string>, env: Collaborators, rate: nat,
                         cs: seq<Candidate>, m: Option<string>, annotation: string, samples: nat)
    requires |cs| == 2 && cs[0].target !in snapshot && cs[1].target !in snapshot && annotation != []
    requires ProcessWavFile(env, rate, cs[0].source, cs[0].target) == Annotated(annotation)
    requires ProcessWavFile(env, rate, cs[1].source, cs[1].target) == TooLong(samples)
    ensures var r := Run(snapshot, false, env, rate, cs, m);
            && r.outcomes == [Annotated(annotation), TooLong(samples)]
            && r.manifest == Some(Contents(m) + EntryLine(cs[0].target, cs[0].speaker, annotation))
  {
    var r := Run(snapshot, false, env, rate, cs, m);
    var o0, o1 := Annotated(annotation), TooLong(samples);
    assert r.outcomes == [o0, o1] by {
      assert |r.outcomes| == 2 && r.outcomes[0] == o0 && r.outcomes[1] == o1;
    }
    var line := EntryLine(cs[0].target, cs[0].speaker, annotation);
    assert NewEntries(cs, r.outcomes) == [line] by {
      assert NewEntries(cs[1..], r.outcomes[1..]) == [] + NewEntries(cs[2..], r.outcomes[2..]);
      assert NewEntries(cs, r.outcomes) == [line] + NewEntries(cs[1..], r.outcomes[1..]);
    }
    assert Concat([line]) == line + Concat([]);
  }

  /** The first run records `a` as `processed_0` with an English-tagged text,
      and rejects `b` as too long. */
  lemma ExampleFirstRun(parent: string, speaker: string, a: string, b: string,
                        env: Collaborators, rate: nat, text: string)
    requires IsCandidate(a) && IsCandidate(b) && 0 < rate
    requires var dir := SpeakerDir(parent, speaker);
             && env.decode(Paths.Join(dir, a)) == Some(12 * rate)
             && env.decode(Paths.Join(dir, b)) == Some(25 * rate)
             && env.save(TargetPath(parent, speaker, 0))
             && env.transcribe(TargetPath(parent, speaker, 0)) == Some(Transcript("en", text))
    ensures var r := Drive(parent, [Directory(speaker, [a, b])], false, env, rate, None);
            && r.outcomes == [Annotated("[EN]" + text + "[EN]\n"), TooLong(25 * rate)]
            && r.manifest == Some(EntryLine(TargetPath(parent, speaker, 0), speaker, "[EN]" + text + "[EN]\n"))
  {
    var cs := Discover(parent, [Directory(speaker, [a, b])]);
    ExampleCandidates(parent, speaker, a, b);
    var dir := SpeakerDir(parent, speaker);
    EnglishFile(env, rate, Paths.Join(dir, a), cs[0].target, 12 * rate, text);
    TooLongFile(env, rate, Paths.Join(dir, b), cs[1].target, 25 * rate);
    var annotation := "[EN]" + text + "[EN]\n";
    RecordThenReject({}, env, rate, cs, None, annotation, 25 * rate);
    var r := Run({}, false, env, rate, cs, None);
    var line := EntryLine(cs[0].target, cs[0].speaker, annotation);
    assert r.manifest == Some(Contents(None) + line);
    assert Contents(None) + line == line;
    assert Drive(parent, [Directory(speaker, [a, b])], false, env, rate, None) == r by {
      assert LoadProcessed(None) == {};
    }
  }

  lemma ExampleTargetsDiffer(parent: string, speaker: string)
    ensures TargetPath(parent, speaker, 0) != TargetPath(parent, speaker, 1)
  {
    ProcessedNameInjective(0, 1);
    assert ProcessedName(0)[0] == 'p' && ProcessedName(1)[0] == 'p';
    Paths.JoinInjective(SpeakerDir(parent, speaker), ProcessedName(0), ProcessedName(1));
  }

  lemma ExampleSnapshot(parent: string, speaker: string, text: string)
    requires KeySafe(TargetPath(parent, speaker, 0)) && NoBreaks(speaker) && NoBreaks(text)
    ensures var target := TargetPath(parent, speaker, 0);
            LoadProcessed(Some(EntryLine(target, speaker, Annotate("en", text)))) == {target}
  {
    var target := TargetPath(parent, speaker, 0);
    EntryKey(target, speaker, Annotate("en", text));
    EntryLineSingle(target, speaker, "en", text);
    SingleRecordSnapshot(EntryLine(target, speaker, Annotate("en", text)));
  }

  lemma TooLongFile(env: Collaborators, rate: nat, source: string, target: string, samples: nat)
    requires env.decode(source) == Some(samples) && 0 < rate && samples > MaxSeconds * rate
    ensures ProcessWavFile(env, rate, source, target) == TooLong(samples)
  {
  }

  /** A two-candidate run whose first target is already recorded and whose
      second is rejected by the duration gate leaves the manifest alone. */
  lemma SkipThenReject(snapshot: set<string>, env: Collaborators, rate: nat,
                       cs: seq<Candidate>, m: Option<string>, samples: nat)
    requires |cs| == 2 && cs[0].target in snapshot && cs[1].target !in snapshot
    requires ProcessWavFile(env, rate, cs[1].source, cs[1].target) == TooLong(samples)
    ensures Run(snapshot, false, env, rate, cs, m) == RunResult(m, [AlreadyProcessed, TooLong(samples)])
  {
    var r := Run(snapshot, false, env, rate, cs, m);
    assert r.outcomes == [AlreadyProcessed, TooLong(samples)] by {
      assert |r.outcomes| == 2 && r.outcomes[0] == AlreadyProcessed && r.outcomes[1] == TooLong(samples);
    }
    AppendOnly(snapshot, false, env, rate, cs, m);
  }

  /** With that record already in the manifest, and the first run's copy
      `processed_0.wav` now listed between `a` and `b`, a run without
      forcing skips `a` without transcribing it and leaves the file
      unchanged. */
  lemma ExampleResumedRun(parent: string, speaker: string, a: string, b: string,
                          env: Collaborators, rate: nat, text: string)
    requires IsCandidate(a) && IsCandidate(b) && 0 < rate
    requires KeySafe(TargetPath(parent, speaker, 0)) && NoBreaks(speaker) && NoBreaks(text)
    requires env.decode(Paths.Join(SpeakerDir(parent, speaker), b)) == Some(25 * rate)
    ensures var line := EntryLine(TargetPath(parent, speaker, 0), speaker, Annotate("en", text));
            var r := Drive(parent, [Directory(speaker, [a, ProcessedName(0), b])], false, env, rate, Some(line));
            && r.outcomes == [AlreadyProcessed, TooLong(25 * rate)]
            && r.manifest == Some(line)
  {
    var line := EntryLine(TargetPath(parent, speaker, 0), speaker, Annotate("en", text));
    assert [a] + [ProcessedName(0)] + [b] == [a, ProcessedName(0), b];
    CopySavedKeepsOriginals([Directory(speaker, [a, b])], 0, [a], 0, [b]);
    assert [Directory(speaker, [a, b])][0 := Directory(speaker, [a, ProcessedName(0), b])]
           == [Directory(speaker, [a, ProcessedName(0), b])];
    DriveSameOriginals(parent, [Directory(speaker, [a, b])], [Directory(speaker, [a, ProcessedName(0), b])],
                       false, env, rate, Some(line));
    ResumedRunOriginals(parent, speaker, a, b, env, rate, text);
  }

  lemma ResumedRunOriginals(parent: string, speaker: string, a: string, b: string,
                            env: Collaborators, rate: nat, text: string)
    requires IsCandidate(a) && IsCandidate(b) && 0 < rate
    requires KeySafe(TargetPath(parent, speaker, 0)) && NoBreaks(speaker) && NoBreaks(text)
    requires env.decode(Paths.Join(SpeakerDir(parent, speaker), b)) == Some(25 * rate)
    ensures var line := EntryLine(TargetPath(parent, speaker, 0), speaker, Annotate("en", text));
            var r := Drive(parent, [Directory(speaker, [a, b])], false, env, rate, Some(line));
            && r.outcomes == [AlreadyProcessed, TooLong(25 * rate)]
            && r.manifest == Some(line)
  {
    var cs := Discover(parent, [Directory(speaker, [a, b])]);
    ExampleCandidates(parent, speaker, a, b);
    var line := EntryLine(TargetPath(parent, speaker, 0), speaker, Annotate("en", text));
    ExampleSnapshot(parent, speaker, text);
    ExampleTargetsDiffer(parent, speaker);
    assert cs[1].source == Paths.Join(SpeakerDir(parent, speaker), b);
    TooLongFile(env, rate, cs[1].source, cs[1].target, 25 * rate);
    SkipThenReject(LoadProcessed(Some(line)), env, rate, cs, Some(line), 25 * rate);
  }
}

=== FILE: manifest.dfy ===
/** The manifest: a text file of `path|speaker|annotated_text` lines, read
    once at start-up into the set of processed paths and afterwards only
    appended to. The file is `None` while it does not exist. */
module Manifest {
  import opened Wrappers
  import opened PyText

  const Sep := '|'

  predicate IsLineBreak(c: char) {
    c == '\n' || c == '\r'
  }

  predicate NoBreaks(s: string) {
    forall k :: 0 <= k < |s| ==> !IsLineBreak(s[k])
  }

  /** Empty, or ending in a newline: appending to such a text starts a new line. */
  predicate Terminated(s: string) {
    s == [] || s[|s| - 1] == '\n'
  }

  /** Exactly one line: a newline at the end and no line break before it. */
  predicate SingleLine(l: string) {
    |l| >= 1 && l[|l| - 1] == '\n' && NoBreaks(l[..|l| - 1])
  }

  /** Universal-newline translation done by reading in text mode:
      `\r\n` and a lone `\r` both become `\n`. */
  function Translate(s: string): (t: string)
    ensures '\r' !in t
    decreases |s|
  {
    if |s| == 0 then []
    else if s[0] == '\r' then
      if |s| > 1 && s[1] == '\n' then "\n" + Translate(s[2..]) else "\n" + Translate(s[1..])
    else [s[0]] + Translate(s[1..])
  }

  /** Length of the first line of `t`, its newline included. */
  function LineEnd(t: string): (e: nat)
    requires |t| > 0
    ensures 0 < e <= |t|
    ensures '\n' !in t[..e - 1]
    ensures e < |t| ==> t[e - 1] == '\n'
  {
    if t[0] == '\n' || |t| == 1 then 1
    else
      var e := 1 + LineEnd(t[1..]);
      assert t[..e - 1] == [t[0]] + t[1..][..e - 2];
      e
  }

  /** The lines `for line in f` yields from translated text `t`: each keeps
      its newline, only the last may lack one, and none is empty. */
  function Lines(t: string): (ls: seq<string>)
    ensures forall k :: 0 <= k < |ls| ==> ls[k] != [] && '\n' !in ls[k][..|ls[k]| - 1]
    ensures forall k :: 0 <= k < |ls| - 1 ==> ls[k][|ls[k]| - 1] == '\n'
    decreases |t|
  {
    if |t| == 0 then []
    else
      var e := LineEnd(t);
      [t[..e]] + Lines(t[e..])
  }

  function Concat(ls: seq<string>): string {
    if |ls| == 0 then [] else ls[0] + Concat(ls[1..])
  }

  /** The key `load_processed_files` takes from a line: the first
      `|`-separated field of the stripped line. */
  function Key(line: string): string {
    Split(Strip(line), Sep)[0]
  }

  /** `k` is the part of the stripped line before its first `|` (all of it
      when there is none). A blank line has the key "". */
  predicate IsKeyOf(k: string, line: string) {
    Sep !in k && (Strip(line) == k || k + [Sep] <= Strip(line))
  }

  function Contents(m: Option<string>): string {
    if m.Some? then m.value else []
  }

  /** The lines of the manifest file as read back. */
  function ManifestLines(m: Option<string>): seq<string> {
    Lines(Translate(Contents(m)))
  }

  function Keys(ls: seq<string>): set<string> {
    if ls == [] then {} else {Key(ls[0])} + Keys(ls[1..])
  }

  lemma {:induction false} KeysAppend(a: seq<string>, b: seq<string>)
    ensures Keys(a + b) == Keys(a) + Keys(b)
  {
    if a != [] {
      assert (a + b)[1..] == a[1..] + b;
      KeysAppend(a[1..], b);
    } else {
      assert a + b == b;
    }
  }

  lemma {:induction false} KeysMembers(ls: seq<string>, k: string)
    ensures k in Keys(ls) <==> exists l :: l in ls && Key(l) == k
  {
    if ls != [] {
      KeysMembers(ls[1..], k);
      assert ls == [ls[0]] + ls[1..];
    }
  }

  /** `load_processed_files`: the set of keys of the manifest's lines, empty
      when the file does not exist. */
  function LoadProcessed(m: Option<string>): (keys: set<string>)
    ensures m.None? ==> keys == {}
  {
    Keys(ManifestLines(m))
  }

  /** Every member of the processed set is the part before the first `|` of
      some stripped line of the manifest, and every line contributes its own. */
  lemma LoadProcessedKeys(m: Option<string>, k: string)
    ensures k in LoadProcessed(m) <==> exists l :: l in ManifestLines(m) && IsKeyOf(k, l)
  {
    KeysMembers(ManifestLines(m), k);
    forall l | l in ManifestLines(m) {
      KeyCharacterization(k, l);
    }
  }

  /** A blank or all-whitespace line puts the empty key into the set. */
  lemma BlankLineKey(m: Option<string>, l: string)
    requires l in ManifestLines(m) && Strip(l) == []
    ensures "" in LoadProcessed(m)
  {
    KeyCharacterization("", l);
    KeysMembers(ManifestLines(m), "");
  }

  /** `Key` computes exactly the part before the first `|`. */
  lemma KeyCharacterization(k: string, line: string)
    ensures Key(line) == k <==> IsKeyOf(k, line)
  {
    FirstField(Strip(line), Sep, k);
  }

  /** The record written for one processed file. */
  function EntryLine(path: string, speaker: string, annotated: string): string {
    path + [Sep] + speaker + [Sep] + annotated
  }

  /** A path that reads back as its own key: no `|`, no line break, and no
      whitespace at its ends. */
  predicate KeySafe(path: string) {
    && Sep !in path
    && NoBreaks(path)
    && (path == [] || (!IsSpace(path[0]) && !IsSpace(path[|path| - 1])))
  }

  /** Opening in append mode creates the file when it is missing. */
  function AppendLine(m: Option<string>, line: string): Option<string> {
    Some(Contents(m) + line)
  }

  /** Appending the lines one after the other, each with its own open. */
  function AppendAll(m: Option<string>, lines: seq<string>): (m': Option<string>)
    ensures lines == [] ==> m' == m
    ensures lines != [] ==> m' == Some(Contents(m) + Concat(lines))
    decreases |lines|
  {
    if lines == [] then m
    else
      var rest := lines[1..];
      var m1 := AppendLine(m, lines[0]);
      var r := AppendAll(m1, rest);
      assert Concat(lines) == lines[0] + Concat(rest);
      assert Contents(m1) + Concat(rest) == Contents(m) + Concat(lines);
      assert rest == [] ==> Concat(lines) == lines[0];
      assert m1 == Some(Contents(m) + lines[0]);
      assert rest != [] ==> r == Some(Contents(m1) + Concat(rest));
      r
  }

  lemma AppendAllCons(m: Option<string>, l: string, rest: seq<string>)
    ensures AppendAll(m, [l] + rest) == AppendAll(AppendLine(m, l), rest)
  {
    var lines := [l] + rest;
    assert lines[0] == l && lines[1..] == rest;
  }

  // Lemmas about reading the file back.

  lemma {:induction false} TranslateIdentity(s: string)
    requires '\r' !in s
    ensures Translate(s) == s
  {
    if |s| > 0 {
      assert s == [s[0]] + s[1..];
      TranslateIdentity(s[1..]);
    }
  }

  /** Text free of carriage returns passes through untouched, whatever
      follows it. */
  lemma {:induction false} TranslateAppendFree(a: string, b: string)
    requires '\r' !in a
    ensures Translate(a + b) == a + Translate(b)
    decreases |a|
  {
    if a != [] {
      assert (a + b)[0] == a[0] && (a + b)[1..] == a[1..] + b;
      TranslateAppendFree(a[1..], b);
      assert a == [a[0]] + a[1..];
    } else {
      assert a + b == b;
    }
  }

  /** A `\r\n` pair becomes one `\n`. */
  lemma TranslateCRLF(a: string, b: string)
    requires '\r' !in a
    ensures Translate(a + "\r\n" + b) == a + "\n" + Translate(b)
  {
    var t := "\r\n" + b;
    assert a + "\r\n" + b == a + t;
    TranslateAppendFree(a, t);
    assert t[0] == '\r' && t[1] == '\n' && t[2..] == b;
    assert Translate(t) == "\n" + Translate(b);
  }

  /** A `\r` not followed by `\n` also becomes one `\n`. */
  lemma TranslateLoneCR(a: string, b: string)
    requires '\r' !in a
    requires b == [] || b[0] != '\n'
    ensures Translate(a + "\r" + b) == a + "\n" + Translate(b)
  {
    var t, x := "\r" + b, Translate(b);
    calc {
      Translate(a + "\r" + b);
      { assert a + "\r" + b == a + t; }
      Translate(a + t);
      { TranslateAppendFree(a, t); }
      a + Translate(t);
      { LoneCRStep(b); }
      a + ("\n" + x);
      a + "\n" + x;
    }
  }

  lemma LoneCRStep(b: string)
    requires b == [] || b[0] != '\n'
    ensures Translate("\r" + b) == "\n" + Translate(b)
  {
    var t := "\r" + b;
    assert t[0] == '\r' && t[1..] == b;
    assert !(|t| > 1 && t[1] == '\n');
  }

  /** Text that ends in a newline is translated independently of what follows. */
  lemma {:induction false} TranslateAppend(a: string, b: string)
    requires Terminated(a)
    ensures Translate(a + b) == Translate(a) + Translate(b)
    decreases |a|
  {
    if a == [] {
      assert a + b == b;
    } else {
      var n := if a[0] == '\r' && a[1] == '\n' then 2 else 1;
      var head := if a[0] == '\r' then "\n" else [a[0]];
      var rest := a[n..];
      TranslateFirst(a, b, n, head);
      TranslateAppend(rest, b);
      var x, y := Translate(rest), Translate(b);
      assert head + (x + y) == (head + x) + y;
    }
  }

  /** The first character (or `\r\n` pair) of a terminated `a` translates
      the same with or without `b` after it. */
  lemma TranslateFirst(a: string, b: string, n: nat, head: string)
    requires Terminated(a) && a != []
    requires n == if a[0] == '\r' && a[1] == '\n' then 2 else 1
    requires head == if a[0] == '\r' then "\n" else [a[0]]
    ensures n <= |a| && Terminated(a[n..])
    ensures Translate(a + b) == head + Translate(a[n..] + b)
    ensures Translate(a) == head + Translate(a[n..])
  {
    var s := a + b;
    assert s[0] == a[0] && s[1..] == a[1..] + b;
    if a[0] == '\r' {
      assert s[1] == a[1];
    }
    assert s[n..] == a[n..] + b;
  }

  /** Translation keeps a final newline. */
  lemma {:induction false} TranslateTerminated(a: string)
    requires Terminated(a)
    ensures Terminated(Translate(a))
    decreases |a|
  {
    if a != [] {
      var n := if a[0] == '\r' && a[1] == '\n' then 2 else 1;
      TranslateTerminated(a[n..]);
      var head := if a[0] == '\r' then "\n" else [a[0]];
      assert Translate(a) == head + Translate(a[n..]);
    }
  }

  lemma {:induction false} LinesAppend(a: string, b: string)
    requires Terminated(a)
    ensures Lines(a + b) == Lines(a) + Lines(b)
    decreases |a|
  {
    if |a| > 0 {
      var s := a + b;
      var e := LineEnd(a);
      LineEndPrefix(a, b);
      assert LineEnd(s) == e;
      assert s[..e] == a[..e];
      assert s[e..] == a[e..] + b;
      assert Terminated(a[e..]);
      LinesAppend(a[e..], b);
      assert Lines(s) == [a[..e]] + Lines(a[e..] + b);
      assert Lines(a) == [a[..e]] + Lines(a[e..]);
    } else {
      assert a + b == b;
    }
  }

  lemma {:induction false} LineEndPrefix(a: string, b: string)
    requires Terminated(a) && |a| > 0
    ensures LineEnd(a + b) == LineEnd(a)
    decreases |a|
  {
    var s := a + b;
    if a[0] != '\n' && |a| > 1 {
      assert s[1..] == a[1..] + b;
      LineEndPrefix(a[1..], b);
    }
  }

  lemma SingleLineLines(l: string)
    requires SingleLine(l)
    ensures Lines(l) == [l]
  {
    var e := LineEnd(l);
    assert forall k :: 0 <= k < |l| - 1 ==> l[k] != '\n' by {
      forall k | 0 <= k < |l| - 1 ensures l[k] != '\n' {
        assert !IsLineBreak(l[..|l| - 1][k]);
      }
    }
    assert e == |l|;
    assert l[..e] == l && l[e..] == [];
  }

  /** Every line `load_processed_files` reads corresponds to a line that was
      written: reading then concatenating gives back the translated text. */
  lemma {:induction false} LinesConcat(t: string)
    ensures Concat(Lines(t)) == t
    decreases |t|
  {
    if |t| > 0 {
      var e := LineEnd(t);
      LinesConcat(t[e..]);
      assert t == t[..e] + t[e..];
    }
  }

  /** A record splits into its path, its speaker, and then the fields of
      the annotated text, when neither of the first two holds a `|`. */
  lemma EntryFields(path: string, speaker: string, annotated: string)
    requires Sep !in path && Sep !in speaker
    ensures Split(EntryLine(path, speaker, annotated), Sep) == [path, speaker] + Split(annotated, Sep)
  {
    var rest := speaker + [Sep] + annotated;
    var tail := Split(annotated, Sep);
    EntryLineTail(path, speaker, annotated);
    SplitAtFirst(speaker, Sep, annotated);
    SplitAtFirst(path, Sep, rest);
    assert [path] + ([speaker] + tail) == [path, speaker] + tail;
  }

  lemma EntryLineTail(path: string, speaker: string, annotated: string)
    ensures EntryLine(path, speaker, annotated) == path + [Sep] + (speaker + [Sep] + annotated)
  {
  }

  /** The line written for `path` reads back with `path` as its key. */
  lemma EntryKey(path: string, speaker: string, annotated: string)
    requires KeySafe(path)
    ensures Key(EntryLine(path, speaker, annotated)) == path
  {
    EntryLineTail(path, speaker, annotated);
    KeyOfRecord(path, speaker + [Sep] + annotated);
  }

  lemma KeyOfRecord(path: string, rest: string)
    requires KeySafe(path)
    ensures Key(path + [Sep] + rest) == path
  {
    var q := path + [Sep];
    assert q[0] == (if path == [] then Sep else path[0]);
    assert q[|q| - 1] == Sep;
    StripKeepsHead(q, rest);
    var stripped := Strip(q + rest);
    assert path + [Sep] <= stripped;
    assert Sep !in path;
    FirstField(stripped, Sep, path);
    assert path + [Sep] + rest == q + rest;
  }

  /** Appending one line to a well-terminated manifest makes it read back as
      one more line, and keeps it well-terminated. */
  lemma ManifestLinesAppend(m: Option<string>, line: string)
    requires Terminated(Contents(m))
    requires SingleLine(line)
    ensures ManifestLines(AppendLine(m, line)) == ManifestLines(m) + [line]
    ensures Terminated(Contents(AppendLine(m, line)))
  {
    var c := Contents(m);
    TranslateAppend(c, line);
    TranslateTerminated(c);
    assert '\r' !in line;
    TranslateIdentity(line);
    LinesAppend(Translate(c), line);
    SingleLineLines(line);
  }

  /** Appending one line to a well-terminated manifest adds exactly that
      line's key to what the next start-up reads. */
  lemma LoadAfterAppend(m: Option<string>, line: string)
    requires Terminated(Contents(m))
    requires SingleLine(line)
    ensures LoadProcessed(AppendLine(m, line)) == LoadProcessed(m) + {Key(line)}
    ensures Terminated(Contents(AppendLine(m, line)))
  {
    ManifestLinesAppend(m, line);
    KeysSnoc(ManifestLines(m), line);
  }

  lemma KeysSnoc(ls: seq<string>, line: string)
    ensures Keys(ls + [line]) == Keys(ls) + {Key(line)}
  {
    KeysAppend(ls, [line]);
    assert Keys([line]) == {Key(line)} + Keys([]);
  }

  /** A manifest holding a single record reads back as that record's key. */
  lemma SingleRecordSnapshot(line: string)
    requires SingleLine(line)
    ensures LoadProcessed(Some(line)) == {Key(line)}
  {
    assert '\r' !in line;
    TranslateIdentity(line);
    SingleLineLines(line);
    assert ManifestLines(Some(line)) == [line];
    assert Keys([line]) == {Key(line)} + Keys([]);
  }

  lemma UnionAssoc(a: set<string>, b: set<string>, c: set<string>)
    ensures (a + b) + c == a + (b + c)
  {
  }

  lemma {:induction false} LoadAfterAppendAll(m: Option<string>, lines: seq<string>)
    requires Terminated(Contents(m))
    requires forall k :: 0 <= k < |lines| ==> SingleLine(lines[k])
    ensures LoadProcessed(AppendAll(m, lines)) == LoadProcessed(m) + Keys(lines)
    ensures Terminated(Contents(AppendAll(m, lines)))
    decreases |lines|
  {
    if lines != [] {
      var m1 := AppendLine(m, lines[0]);
      var rest := lines[1..];
      assert AppendAll(m, lines) == AppendAll(m1, rest);
      LoadAfterAppend(m, lines[0]);
      assert forall k :: 0 <= k < |rest| ==> SingleLine(rest[k]) by {
        forall k | 0 <= k < |rest| ensures SingleLine(rest[k]) {
          assert rest[k] == lines[k + 1];
        }
      }
      LoadAfterAppendAll(m1, rest);
      var before, after := LoadProcessed(m), LoadProcessed(AppendAll(m, lines));
      assert after == LoadProcessed(m1) + Keys(rest);
      assert LoadProcessed(m1) == before + {Key(lines[0])};
      assert Keys(lines) == {Key(lines[0])} + Keys(rest);
      UnionAssoc(before, {Key(lines[0])}, Keys(rest));
    } else {
      assert Keys(lines) == {};
    }
  }
}

=== FILE: paths.dfy ===
/** `os.path.join(a, b)` on a POSIX system, for the two-argument calls the
    driver makes. */
module Paths {
  import opened PyText

  predicate IsAbsolute(p: string) {
    StartsWith(p, "/")
  }

  /** The directory part `join` puts in front of a relative name: `a`
      itself when it is empty or already ends in a slash, `a + "/"` otherwise. */
  function DirPrefix(a: string): (d: string)
    ensures d == [] || d[|d| - 1] == '/'
    ensures a <= d
  {
    if a == [] || a[|a| - 1] == '/' then a else a + "/"
  }

  /** `posixpath.join(a, b)`. */
  function Join(a: string, b: string): string {
    if IsAbsolute(b) then b
    else if a == [] || a[|a| - 1] == '/' then a + b
    else a + "/" + b
  }

  /** An absolute `b` discards `a`; otherwise the result starts with `a`,
      ends with `b`, adds at most one character between them, and has a
      slash just before `b` unless `a` is empty; it adds that slash exactly
      when `a` is non-empty and does not already end in one. */
  lemma JoinShape(a: string, b: string)
    ensures IsAbsolute(b) ==> Join(a, b) == b
    ensures var p := Join(a, b);
            !IsAbsolute(b) ==>
              && a <= p && EndsWith(p, b)
              && |a| + |b| <= |p| <= |a| + |b| + 1
              && (a != [] ==> p[|p| - |b| - 1] == '/')
              && ((a == [] || a[|a| - 1] == '/') <==> |p| == |a| + |b|)
  {
  }

  /** A relative name is joined onto the directory prefix of `a`. */
  lemma JoinRelative(a: string, b: string)
    requires !IsAbsolute(b)
    ensures Join(a, b) == DirPrefix(a) + b
  {
  }

  /** Joining one directory with two different relative names gives two
      different paths. */
  lemma JoinInjective(a: string, b1: string, b2: string)
    requires !IsAbsolute(b1) && !IsAbsolute(b2)
    ensures Join(a, b1) == Join(a, b2) ==> b1 == b2
  {
    var d := DirPrefix(a);
    JoinRelative(a, b1);
    JoinRelative(a, b2);
    if Join(a, b1) == Join(a, b2) {
      assert b1 == (d + b1)[|d|..] == (d + b2)[|d|..] == b2;
    }
  }
}

=== FILE: pipeline.dfy ===
/** `process_wav_file` and `transcribe_one`: load and resample, reject audio
    longer than 20 seconds, save the processed copy, transcribe it, accept only
    languages with a token, and wrap the text in that token. Every exception is
    caught and turned into a failure outcome. */
module Pipeline {
  import opened Wrappers

  /** `lang2token`. */
  const LangTokens: map<string, string> := map["zh" := "[ZH]", "ja" := "[JA]", "en" := "[EN]"]

  /** The duration ceiling, in seconds. */
  const MaxSeconds: nat := 20

  datatype Transcript = Transcript(lang: string, text: string)

  /** The audio library and the speech model, as the script uses them.
      `decode` stands for loading, averaging the channels and resampling to
      the target rate, and yields the number of samples (None when any of it
      raised); `save` writes the processed copy (false when it raised);
      `transcribe` is `transcribe_one` on the saved copy, None when the model
      raised. */
  datatype Collaborators = Collaborators(
    decode: string -> Option<nat>,
    save: string -> bool,
    transcribe: string -> Option<Transcript>)

  /** Where an exception inside `process_wav_file` was raised: loading or
      resampling, the duration division (a zero target rate), or saving. */
  datatype Stage = Load | Duration | Save

  /** The fate of one candidate in one run. */
  datatype Outcome =
    | AlreadyProcessed
    | Failed(stage: Stage)
    | TooLong(samples: nat)
    | TranscriptionFailed
    | UnsupportedLanguage(lang: string)
    | Annotated(annotation: string)
  {
    /** What `process_wav_file` returns. */
    function Result(): Option<string> {
      if Annotated? then Some(annotation) else None
    }

    /** The processed copy was written and handed to the speech model. */
    predicate Saved() {
      TranscriptionFailed? || UnsupportedLanguage? || Annotated?
    }
  }

  /** The language whose token is `tok`, if any. */
  function TokenLanguage(tok: string): (r: Option<string>)
    ensures r.Some? ==> r.value in LangTokens && LangTokens[r.value] == tok
    ensures forall l :: l in LangTokens && LangTokens[l] == tok ==> r == Some(l)
  {
    if tok == "[ZH]" then Some("zh")
    else if tok == "[JA]" then Some("ja")
    else if tok == "[EN]" then Some("en")
    else None
  }

  /** The annotated text: the language token on both sides of the text, and
      a newline that ends the manifest record. */
  function Annotate(lang: string, text: string): (a: string)
    requires lang in LangTokens
    ensures |a| == |text| + 9 && a[|a| - 1] == '\n'
  {
    LangTokens[lang] + text + LangTokens[lang] + "\n"
  }

  /** Reads an annotated text back into the language and the text. */
  function ParseAnnotation(a: string): Option<Transcript> {
    if |a| < 9 || a[|a| - 1] != '\n' then None
    else
      match TokenLanguage(a[..4])
      case None => None
      case Some(lang) =>
        if a[|a| - 5..|a| - 1] == a[..4] then Some(Transcript(lang, a[4..|a| - 5])) else None
  }

  /** The annotation carries the detected language and the text unchanged. */
  lemma AnnotationRoundTrip(lang: string, text: string)
    requires lang in LangTokens
    ensures ParseAnnotation(Annotate(lang, text)) == Some(Transcript(lang, text))
  {
    var tok := LangTokens[lang];
    var a := Annotate(lang, text);
    assert |tok| == 4;
    assert a[..4] == tok;
    assert a[|a| - 5..|a| - 1] == tok;
    assert a[4..|a| - 5] == text;
  }

  /** `duration > 20.0` with `duration = samples / target_sr`, over exact
      rationals, is the integer comparison the model uses. */
  lemma DurationGateExact(samples: nat, rate: nat)
    requires rate > 0
    ensures (samples as real) / (rate as real) > MaxSeconds as real <==> samples > MaxSeconds * rate
  {
    var d := (samples as real) / (rate as real);
    assert d * (rate as real) == samples as real;
    assert (MaxSeconds * rate) as real == (MaxSeconds as real) * (rate as real);
    if d > MaxSeconds as real {
      assert d * (rate as real) > (MaxSeconds as real) * (rate as real);
    }
  }

  /** `process_wav_file` for one source file and its target path. The result
      is an annotation exactly when every gate passed, and the annotation then
      reads back as the transcription; too-long audio is never saved or
      transcribed. */
  function ProcessWavFile(env: Collaborators, rate: nat, wavPath: string, savePath: string): (o: Outcome)
    ensures !o.AlreadyProcessed?
    ensures o.Result().Some? <==>
              && env.decode(wavPath).Some?
              && 0 < rate
              && env.decode(wavPath).value <= MaxSeconds * rate
              && env.save(savePath)
              && env.transcribe(savePath).Some?
              && env.transcribe(savePath).value.lang in LangTokens
    ensures o.Result().Some? ==> ParseAnnotation(o.Result().value) == env.transcribe(savePath)
    ensures o.Saved() ==> env.decode(wavPath).Some? && 0 < rate && env.decode(wavPath).value <= MaxSeconds * rate
  {
    match env.decode(wavPath)
    case None => Failed(Load)
    case Some(samples) =>
      if rate == 0 then Failed(Duration)
      else if samples > MaxSeconds * rate then TooLong(samples)
      else if !env.save(savePath) then Failed(Save)
      else
        match env.transcribe(savePath)
        case None => TranscriptionFailed
        case Some(t) =>
          if t.lang !in LangTokens then UnsupportedLanguage(t.lang)
          else
            AnnotationRoundTrip(t.lang, t.text);
            Annotated(Annotate(t.lang, t.text))
  }

  /** The language gate: a failed transcription or a language without a
      token yields no annotation; a supported one yields exactly
      token + text + token + newline. */
  lemma LanguageGate(env: Collaborators, rate: nat, wavPath: string, savePath: string)
    requires env.decode(wavPath).Some? && 0 < rate
    requires env.decode(wavPath).value <= MaxSeconds * rate && env.save(savePath)
    ensures env.transcribe(savePath).None? ==> ProcessWavFile(env, rate, wavPath, savePath) == TranscriptionFailed
    ensures env.transcribe(savePath).Some? && env.transcribe(savePath).value.lang !in LangTokens ==>
              ProcessWavFile(env, rate, wavPath, savePath).Result() == None
    ensures env.transcribe(savePath).Some? && env.transcribe(savePath).value.lang in LangTokens ==>
              var t := env.transcribe(savePath).value;
              ProcessWavFile(env, rate, wavPath, savePath).Result()
                == Some(LangTokens[t.lang] + t.text + LangTokens[t.lang] + "\n")
  {
  }

  /** The duration gate: audio longer than 20 seconds at the target rate is
      rejected before it is saved or transcribed. */
  lemma DurationGate(env: Collaborators, rate: nat, wavPath: string, savePath: string)
    requires env.decode(wavPath).Some? && 0 < rate
    requires env.decode(wavPath).value > MaxSeconds * rate
    ensures ProcessWavFile(env, rate, wavPath, savePath) == TooLong(env.decode(wavPath).value)
    ensures !ProcessWavFile(env, rate, wavPath, savePath).Saved()
  {
  }
}

=== FILE: pytext.dfy ===
/** The pieces of Python's `str` behaviour the driver relies on: `isspace`,
    `strip()`, `split(sep)`, `startswith` and `endswith`. */
module PyText {

  /** The characters `str.isspace()` accepts; `str.strip()` with no argument
      removes exactly these from both ends. */
  predicate IsSpace(c: char) {
    || c == ' '
    || ('\t' <= c <= '\r')
    || ('\U{1C}' <= c <= '\U{1F}')
    || c == '\U{85}'
    || c == '\U{A0}'
    || c == '\U{1680}'
    || ('\U{2000}' <= c <= '\U{200A}')
    || c == '\U{2028}'
    || c == '\U{2029}'
    || c == '\U{202F}'
    || c == '\U{205F}'
    || c == '\U{3000}'
  }

  predicate StartsWith(s: string, prefix: string) {
    prefix <= s
  }

  predicate EndsWith(s: string, suffix: string) {
    |suffix| <= |s| && s[|s| - |suffix|..] == suffix
  }

  /** The first index at or after `from` that does not hold whitespace, or
      `|s|` when there is none: `s.lstrip()` is `s[SkipSpace(s, 0)..]`. */
  function SkipSpace(s: string, from: nat): (i: nat)
    requires from <= |s|
    ensures from <= i <= |s|
    ensures forall k :: from <= k < i ==> IsSpace(s[k])
    ensures i == |s| || !IsSpace(s[i])
    decreases |s| - from
  {
    if from < |s| && IsSpace(s[from]) then SkipSpace(s, from + 1) else from
  }

  /** The end of `s[lo..hi]` once trailing whitespace is dropped:
      `s[lo..hi].rstrip()` is `s[lo..SkipSpaceBack(s, lo, hi)]`. */
  function SkipSpaceBack(s: string, lo: nat, hi: nat): (j: nat)
    requires lo <= hi <= |s|
    ensures lo <= j <= hi
    ensures forall k :: j <= k < hi ==> IsSpace(s[k])
    ensures j == lo || !IsSpace(s[j - 1])
  {
    if lo < hi && IsSpace(s[hi - 1]) then SkipSpaceBack(s, lo, hi - 1) else hi
  }

  /** `s.strip()`: a slice `s[i..j]` with only whitespace outside it and no
      whitespace at either end of it. */
  function Strip(s: string): (r: string)
    ensures exists i, j {:trigger s[i..j]} ::
              && 0 <= i <= j <= |s| && r == s[i..j]
              && (forall k :: 0 <= k < i ==> IsSpace(s[k]))
              && (forall k :: j <= k < |s| ==> IsSpace(s[k]))
    ensures r == [] || (!IsSpace(r[0]) && !IsSpace(r[|r| - 1]))
  {
    var i := SkipSpace(s, 0);
    var j := SkipSpaceBack(s, i, |s|);
    assert i < j ==> s[i..j][0] == s[i] && s[i..j][j - i - 1] == s[j - 1];
    s[i..j]
  }

  /** A string that begins with a non-whitespace character keeps every
      character up to its last non-whitespace one under `strip()`. */
  lemma StripKeepsHead(q: string, t: string)
    requires q != [] && !IsSpace(q[0]) && !IsSpace(q[|q| - 1])
    ensures q <= Strip(q + t)
  {
    var s := q + t;
    assert s[0] == q[0] && s[|q| - 1] == q[|q| - 1];
    assert SkipSpace(s, 0) == 0;
    var j := SkipSpaceBack(s, 0, |s|);
    assert |q| <= j;
    assert s[..j][..|q|] == q;
  }

  /** Position of the first `sep` in `s`, or `|s|` when there is none. */
  function FieldEnd(s: string, sep: char): (n: nat)
    ensures n <= |s|
    ensures sep !in s[..n]
    ensures n < |s| ==> s[n] == sep
  {
    if |s| == 0 || s[0] == sep then 0
    else
      var n := 1 + FieldEnd(s[1..], sep);
      assert s[..n] == [s[0]] + s[1..][..n - 1];
      n
  }

  /** `s.split(sep)`: never empty, and no field contains the separator. */
  function Split(s: string, sep: char): (r: seq<string>)
    ensures |r| >= 1
    ensures forall k :: 0 <= k < |r| ==> sep !in r[k]
    decreases |s|
  {
    var n := FieldEnd(s, sep);
    if n == |s| then [s] else [s[..n]] + Split(s[n + 1..], sep)
  }

  /** `sep.join(fields)`. */
  function JoinFields(fields: seq<string>, sep: char): string
    requires |fields| >= 1
  {
    if |fields| == 1 then fields[0] else fields[0] + [sep] + JoinFields(fields[1..], sep)
  }

  /** A field ending at the first separator is split off as a whole. */
  lemma SplitAtFirst(a: string, sep: char, b: string)
    requires sep !in a
    ensures Split(a + [sep] + b, sep) == [a] + Split(b, sep)
  {
    var s := a + [sep] + b;
    var n := FieldEnd(s, sep);
    assert s[..|a|] == a;
    assert s[|a|] == sep;
    assert n == |a|;
    assert s[..n] == a && s[n + 1..] == b;
  }

  /** Joining what `split` returns gives back the original string. */
  lemma {:induction false} JoinSplit(s: string, sep: char)
    ensures JoinFields(Split(s, sep), sep) == s
    decreases |s|
  {
    var n := FieldEnd(s, sep);
    var fields := Split(s, sep);
    if n < |s| {
      var tail := Split(s[n + 1..], sep);
      assert fields == [s[..n]] + tail;
      assert fields[1..] == tail;
      JoinSplit(s[n + 1..], sep);
      assert JoinFields(fields, sep) == s[..n] + [sep] + JoinFields(tail, sep);
      assert s == s[..n] + [sep] + s[n + 1..];
    } else {
      assert fields == [s];
    }
  }

  /** Splitting a join of separator-free fields gives back the fields. */
  lemma {:induction false} SplitJoin(fields: seq<string>, sep: char)
    requires |fields| >= 1
    requires forall k :: 0 <= k < |fields| ==> sep !in fields[k]
    ensures Split(JoinFields(fields, sep), sep) == fields
  {
    if |fields| == 1 {
      assert FieldEnd(fields[0], sep) == |fields[0]|;
    } else {
      SplitAtFirst(fields[0], sep, JoinFields(fields[1..], sep));
      SplitJoin(fields[1..], sep);
    }
  }

  /** The first field of `s.split(sep)` is the longest separator-free prefix of `s`. */
  lemma FirstField(s: string, sep: char, k: string)
    ensures Split(s, sep)[0] == k <==> sep !in k && (s == k || k + [sep] <= s)
  {
    var n := FieldEnd(s, sep);
    if sep !in k && k + [sep] <= s {
      assert s == k + [sep] + s[|k| + 1..];
      SplitAtFirst(k, sep, s[|k| + 1..]);
    }
    if Split(s, sep)[0] == k && n < |s| {
      assert s[..n + 1] == k + [sep];
    }
  }
}

=== FILE: wrappers.dfy ===
/** The Option type used wherever the script returns `None` or catches an
    exception and carries on. */
module Wrappers {

  datatype Option<+T> = None | Some(value: T)
}
